=== FILE: README.md ===
# Host access policies and the polyglot value oracle

This project models two parts of the GraalVM polyglot code base in Dafny and proves
properties of the model.

**`HostAccess`** is the policy that decides whether guest code may reach a host member
(a field, a method or a constructor). The model covers:

- the mutable `Builder`, a class whose rule methods add annotation types, members and
  class exclusions, or set flags;
- `build()`, which freezes the rules into an immutable policy value;
- the `EXPLICIT`, `ALL` and `NONE` presets, each built through the builder;
- `allowsAccess`, with its loops over the exclusion entries and the annotation types.

Reflection is abstracted:

- a member is a record of its kind, its signature, its declaring class and the
  annotation types it carries;
- `Class.isAssignableFrom` becomes a class hierarchy in which each class lists all of its
  supertypes.

The loops are proved equal to a declarative decision (`Allows`) whatever order the
policy's collections iterate in. The precedence laws are then proved about that decision:

- exclusions beat every allow rule;
- allow rules only allow, and exclusions only deny;
- elements that are not members are judged as declared in `Object`.

**`ValueAssert`** is the conformance oracle the Truffle tests run on polyglot values.
A value is represented by what a test can observe of it:

- the traits its predicates report;
- its numeric answers;
- which probed operations throw, and with which exception;
- its array elements and members;
- the list and map views it converts to.

The model covers:

- `detectSupportedTypes` (eleven tests in a row), `assertUnsupported` (a loop over
  `Trait.values()`) and `assertValueArrayElements` (an element loop, a member loop and an
  element write-back loop), as imperative methods;
- the switch of `assertValue`, as a method over the declared traits;
- the integral part of `assertValueNumber`, with Java's narrowing casts written out as
  two's-complement arithmetic;
- the never-supported map conversions.

Each method is proved against predicates (`Passes`, `Conforms`, `ArrayChecks`,
`NumberChecks`, `UnsupportedCheck`). The module `Conformance` then proves two directions:

- what a passing value must satisfy, for example that integral `fitsIn*` answers are decided
  by the `long` value, and that a declaration passes only when it names exactly the value's
  traits;
- that every value whose answers follow an independent reference table passes the oracle
  (`WellBehavedValuesConform`). The table marks the operations that must throw (`MustFail`)
  and those that must return (`MustComplete`). It marks as returning only what the oracle
  itself calls and expects to return: the `asByte` .. `asDouble` accessors but not a number's
  `as(Class)` conversions, `getMember` only when there are member keys, and element access
  only on a non-empty array. Everything else it leaves free. This is a sufficient condition, not a characterisation: its numeric part also asks
  that a number fitting a narrow type fits every wider one, which the oracle does not check
  (`NarrowAnswersAloneAreUnchecked`).

Files:

- `host_access.dfy`: module `HostAccessPolicy`
- `java_integers.dfy`: module `JavaIntegers` (Java integral types and narrowing casts)
- `value_model.dfy`: module `PolyglotValue` (traits, operations, the observed value)
- `value_assert.dfy`: module `ValueAssert` (the oracle)
- `conformance.dfy`: module `Conformance` (properties of the oracle)

## Model

| member | source | states |
|---|---|---|
| HostAccessPolicy.IsAssignableFrom | sdk/src/org.graalvm.polyglot/src/org/graalvm/polyglot/HostAccess.java:168 | `sup.isAssignableFrom(sub)`: `sub` is `sup`, `sup` is `Object`, or `sup` is among the stored supertypes of `sub`. |
| HostAccessPolicy.GetDeclaringClass | sdk/src/org.graalvm.polyglot/src/org/graalvm/polyglot/HostAccess.java:220-234 | The declaring class of a field, method or constructor; `Object` for any other element. |
| HostAccessPolicy.HasAnnotation | sdk/src/org.graalvm.polyglot/src/org/graalvm/polyglot/HostAccess.java:204-218 | A field, method or constructor carries the annotation when it is among its annotations; any other element never does. |
| HostAccessPolicy.ExclusionMatches | sdk/src/org.graalvm.polyglot/src/org/graalvm/polyglot/HostAccess.java:165-175 | An entry with the flag true matches the banned class and its subclasses; with the flag false only the banned class itself. |
| HostAccessPolicy.Excluded | sdk/src/org.graalvm.polyglot/src/org/graalvm/polyglot/HostAccess.java:162-177 | The exclusion map is present and some entry of it matches the owner class. |
| HostAccessPolicy.ExplicitlyAllowed | sdk/src/org.graalvm.polyglot/src/org/graalvm/polyglot/HostAccess.java:181-183 | The member set is present and contains the member. |
| HostAccessPolicy.CarriesRegisteredAnnotation | sdk/src/org.graalvm.polyglot/src/org/graalvm/polyglot/HostAccess.java:184-190 | The annotation set is present and the member carries one of its annotations. |
| HostAccessPolicy.Allows | sdk/src/org.graalvm.polyglot/src/org/graalvm/polyglot/HostAccess.java:161-192 | The order-free access decision: not excluded, and allowed by public access, the member set or an annotation. |
| HostAccessPolicy.SubtypeTransitive | sdk/src/org.graalvm.polyglot/src/org/graalvm/polyglot/HostAccess.java:168 | In a closed hierarchy, the subtype relation used by `isAssignableFrom` is transitive. |
| HostAccessPolicy.AllowsAccess | sdk/src/org.graalvm.polyglot/src/org/graalvm/polyglot/HostAccess.java:161-192 | For every iteration order of the exclusion map and the annotation set, the scan with early returns yields exactly `Allows`. `Allows` holds when no exclusion entry matches the declaring class, and public access, the explicit member set or a registered annotation allows the member. |
| HostAccessPolicy.ExclusionCoversSubclassChain | sdk/src/org.graalvm.polyglot/src/org/graalvm/polyglot/HostAccess.java:164-170 | A class excluded with its subclasses denies every member declared anywhere below it, through any chain of subclasses, whatever the allow rules say. |
| HostAccessPolicy.ExactExclusionMatchesOnlyItsClass | sdk/src/org.graalvm.polyglot/src/org/graalvm/polyglot/HostAccess.java:166-175 | An entry with the flag false matches exactly its own class. An entry with the flag true matches exactly the class and its subclasses. |
| HostAccessPolicy.AllowRulesOnlyAllow | sdk/src/org.graalvm.polyglot/src/org/graalvm/polyglot/HostAccess.java:178-191 | With the same exclusions, more annotations, more members or public access never turn an allowed member into a denied one. |
| HostAccessPolicy.ExclusionsOnlyDeny | sdk/src/org.graalvm.polyglot/src/org/graalvm/polyglot/HostAccess.java:162-177 | With everything else equal, a policy with more exclusion entries allows only what a policy with fewer entries allows. |
| HostAccessPolicy.NonMemberJudgedAsObject | sdk/src/org.graalvm.polyglot/src/org/graalvm/polyglot/HostAccess.java:204-234 | An element that is not a field, method or constructor is judged as declared in `Object` and carries no annotation. It is allowed iff `Object` is not excluded and public access or the member set allows it. |
| HostAccessPolicy.DenyingObjectDeniesAll | sdk/src/org.graalvm.polyglot/src/org/graalvm/polyglot/HostAccess.java:164-170 | Excluding `Object` with its subclasses denies every member. |
| HostAccessPolicy.Builder.constructor | sdk/src/org.graalvm.polyglot/src/org/graalvm/polyglot/HostAccess.java:274-284 | A new builder has empty rule collections, every flag false and no name. |
| HostAccessPolicy.Builder.AllowAccessAnnotatedBy | sdk/src/org.graalvm.polyglot/src/org/graalvm/polyglot/HostAccess.java:292-296 | A null annotation throws and changes nothing. Otherwise the annotation is added, nothing else changes, and the builder is returned. |
| HostAccessPolicy.Builder.AllowPublicAccess | sdk/src/org.graalvm.polyglot/src/org/graalvm/polyglot/HostAccess.java:306-309 | Sets the public flag only and returns the builder. |
| HostAccessPolicy.Builder.AllowAccessExecutable | sdk/src/org.graalvm.polyglot/src/org/graalvm/polyglot/HostAccess.java:317-321 | A null element throws and changes nothing. Otherwise the method or constructor is added to the member set and nothing else changes. |
| HostAccessPolicy.Builder.AllowAccessField | sdk/src/org.graalvm.polyglot/src/org/graalvm/polyglot/HostAccess.java:329-333 | A null field throws and changes nothing. Otherwise the field is added to the member set and nothing else changes. |
| HostAccessPolicy.Builder.DenyAccess | sdk/src/org.graalvm.polyglot/src/org/graalvm/polyglot/HostAccess.java:342-344 | Has the effect of `denyAccess(clazz, true)`. |
| HostAccessPolicy.Builder.DenyAccessWith | sdk/src/org.graalvm.polyglot/src/org/graalvm/polyglot/HostAccess.java:354-358 | A null class throws and changes nothing. Otherwise the exclusion map gets the class with the given flag, replacing any earlier flag, and nothing else changes. |
| HostAccessPolicy.Builder.AllowArrayAccess | sdk/src/org.graalvm.polyglot/src/org/graalvm/polyglot/HostAccess.java:367-370 | Sets the array flag only and returns the builder. |
| HostAccessPolicy.Builder.AllowListAccess | sdk/src/org.graalvm.polyglot/src/org/graalvm/polyglot/HostAccess.java:379-382 | Sets the list flag only and returns the builder. |
| HostAccessPolicy.Builder.Name | sdk/src/org.graalvm.polyglot/src/org/graalvm/polyglot/HostAccess.java:384-387 | Sets the name only (null accepted) and returns the builder. |
| HostAccessPolicy.Builder.Build | sdk/src/org.graalvm.polyglot/src/org/graalvm/polyglot/HostAccess.java:394-396 | The policy holds the builder's current rules, with every collection present. |
| HostAccessPolicy.ExplicitPolicy | sdk/src/org.graalvm.polyglot/src/org/graalvm/polyglot/HostAccess.java:106 | `EXPLICIT` allows a member exactly when it carries `Export`. It grants neither array nor list access, and is named `HostAccess.EXPLICIT`. |
| HostAccessPolicy.AllPolicy | sdk/src/org.graalvm.polyglot/src/org/graalvm/polyglot/HostAccess.java:124 | `ALL` allows every member in every hierarchy and grants array and list access. |
| HostAccessPolicy.NonePolicy | sdk/src/org.graalvm.polyglot/src/org/graalvm/polyglot/HostAccess.java:137 | `NONE` denies every member in every hierarchy. |
| HostAccessPolicy.ExclusionOverridesEveryAllow | sdk/src/org.graalvm.polyglot/src/org/graalvm/polyglot/HostAccess.java:161-177 | A member allowed publicly, explicitly and by annotation is still denied by `allowsAccess` once its class lies below a `denyAccess` class. |
| HostAccessPolicy.RepeatedDenyKeepsLastFlag | sdk/src/org.graalvm.polyglot/src/org/graalvm/polyglot/HostAccess.java:354-357 | Two `denyAccess` calls for one class leave a single entry holding the last flag. |
| HostAccessPolicy.BuildSnapshotsRules | sdk/src/org.graalvm.polyglot/src/org/graalvm/polyglot/HostAccess.java:139-149 | A policy built before a later `denyAccess` on its builder still allows the member. One built afterwards allows it iff its class is not below the denied class. |
| JavaIntegers.ToByte | truffle/src/com.oracle.truffle.api.test/src/com/oracle/truffle/api/test/polyglot/ValueAssert.java:402 | `(byte) x` is the value in the byte range with the same low 8 bits as `x` (congruent modulo 2^8), which determines it. |
| JavaIntegers.ToShort | truffle/src/com.oracle.truffle.api.test/src/com/oracle/truffle/api/test/polyglot/ValueAssert.java:410 | `(short) x` is the value in the short range congruent to `x` modulo 2^16. |
| JavaIntegers.ToInt | truffle/src/com.oracle.truffle.api.test/src/com/oracle/truffle/api/test/polyglot/ValueAssert.java:419 | `(int) x` is the value in the int range congruent to `x` modulo 2^32. |
| JavaIntegers.Narrow | truffle/src/com.oracle.truffle.api.test/src/com/oracle/truffle/api/test/polyglot/ValueAssert.java:402 | The shared two's-complement narrowing lands in the target type's range; the three casts above state which value it yields. |
| JavaIntegers.ByteCastIdentityExactlyInRange | truffle/src/com.oracle.truffle.api.test/src/com/oracle/truffle/api/test/polyglot/ValueAssert.java:402 | `(byte) x == x` iff x lies in the byte range. |
| JavaIntegers.ShortCastIdentityExactlyInRange | truffle/src/com.oracle.truffle.api.test/src/com/oracle/truffle/api/test/polyglot/ValueAssert.java:410 | `(short) x == x` iff x lies in the short range. |
| JavaIntegers.IntCastIdentityExactlyInRange | truffle/src/com.oracle.truffle.api.test/src/com/oracle/truffle/api/test/polyglot/ValueAssert.java:419 | `(int) x == x` iff x lies in the int range. |
| PolyglotValue.AllTraitsListsEachTraitOnce | truffle/src/com.oracle.truffle.api.test/src/com/oracle/truffle/api/test/polyglot/ValueAssert.java:519-533 | `Trait.values()` lists every trait, each once. |
| PolyglotValue.WithElement | truffle/src/com.oracle.truffle.api.test/src/com/oracle/truffle/api/test/polyglot/ValueAssert.java:338 | `setArrayElement(i, x)` keeps the size, puts x at index i, and leaves every other element and everything else unchanged. |
| ValueAssert.Detected | truffle/src/com.oracle.truffle.api.test/src/com/oracle/truffle/api/test/polyglot/ValueAssert.java:481-517 | The traits `detectSupportedTypes` reports, in the order it asks: Boolean, HostObject, Native, String, Number, Members, ArrayElements, Instantiable, Executable, Null, ProxyObject. |
| ValueAssert.DetectionStep | truffle/src/com.oracle.truffle.api.test/src/com/oracle/truffle/api/test/polyglot/ValueAssert.java:483-515 | Asking about a trait not asked before extends a duplicate-free listing of the asked traits that hold. |
| ValueAssert.DetectedListsEachTraitOnce | truffle/src/com.oracle.truffle.api.test/src/com/oracle/truffle/api/test/polyglot/ValueAssert.java:481-517 | The detected list contains a trait iff the value reports it, with no duplicates. |
| ValueAssert.AddIfSupported | truffle/src/com.oracle.truffle.api.test/src/com/oracle/truffle/api/test/polyglot/ValueAssert.java:483-485 | Appends the trait exactly when the value reports it. |
| ValueAssert.DetectSupportedTypes | truffle/src/com.oracle.truffle.api.test/src/com/oracle/truffle/api/test/polyglot/ValueAssert.java:481-517 | Returns the traits in the order asked, each reported trait exactly once, and no other trait. |
| ValueAssert.NumberChecks | truffle/src/com.oracle.truffle.api.test/src/com/oracle/truffle/api/test/polyglot/ValueAssert.java:392-422 | `assertValueNumber` without the floating-point consistency check: each accessor returns iff its `fitsIn*` answers true and otherwise throws a cast error; each `short`, `int` and `long` read back decides the narrower `fitsIn*` answers by whether the narrowing cast preserves it. |
| ValueAssert.UnsupportedProbes | truffle/src/com.oracle.truffle.api.test/src/com/oracle/truffle/api/test/polyglot/ValueAssert.java:200-285 | The operations `assertUnsupported` probes for each absent trait; the `Function` and varargs adaptations only when neither `execute` nor `newInstance` is possible. |
| ValueAssert.UnsupportedCheck | truffle/src/com.oracle.truffle.api.test/src/com/oracle/truffle/api/test/polyglot/ValueAssert.java:200-285 | One case of `assertUnsupported`: the predicate answers false (for numbers every `fitsIn*` too) and every probe throws the expected exception. |
| ValueAssert.AssertUnsupported | truffle/src/com.oracle.truffle.api.test/src/com/oracle/truffle/api/test/polyglot/ValueAssert.java:193-289 | Checks exactly the traits not in the supported list, each once. It passes iff every one of them passes its unsupported check. |
| ValueAssert.IndexMap | truffle/src/com.oracle.truffle.api.test/src/com/oracle/truffle/api/test/polyglot/ValueAssert.java:303 | The `Long`-keyed map has exactly the indices below the size as keys. |
| ValueAssert.IntKeyed | truffle/src/com.oracle.truffle.api.test/src/com/oracle/truffle/api/test/polyglot/ValueAssert.java:304 | Every key of the map filled through `(int) i` is a Java `int`. |
| ValueAssert.IndexObjectMap | truffle/src/com.oracle.truffle.api.test/src/com/oracle/truffle/api/test/polyglot/ValueAssert.java:302 | The indexed entries of the `Object`-keyed map are exactly the boxed indices below the size. |
| ValueAssert.NameObjectMap | truffle/src/com.oracle.truffle.api.test/src/com/oracle/truffle/api/test/polyglot/ValueAssert.java:307-311 | The member entries of the `Object`-keyed map are exactly the member names. |
| ValueAssert.IndexMapsExtend | truffle/src/com.oracle.truffle.api.test/src/com/oracle/truffle/api/test/polyglot/ValueAssert.java:299-304 | One iteration of the element loop extends the list and each map by exactly element i. |
| ValueAssert.NameObjectMapExtend | truffle/src/com.oracle.truffle.api.test/src/com/oracle/truffle/api/test/polyglot/ValueAssert.java:308-310 | Storing one more member under its name extends the map by exactly that member. |
| ValueAssert.ProbesNeverSupportedMaps | truffle/src/com.oracle.truffle.api.test/src/com/oracle/truffle/api/test/polyglot/ValueAssert.java:182 | The never-supported maps are probed only on a value that is neither null nor a host `Map`. |
| ValueAssert.NeverSupportedMapsCheck | truffle/src/com.oracle.truffle.api.test/src/com/oracle/truffle/api/test/polyglot/ValueAssert.java:84-88 | When probed, conversion to each map type of `NEVER_SUPPORTED_MAPS` (keys `Byte`, `Short`, `Float`, `Double`, `CharSequence`) throws a cast error; the probe loop is at lines 182-190. |
| ValueAssert.FunctionalMappingChecks | truffle/src/com.oracle.truffle.api.test/src/com/oracle/truffle/api/test/polyglot/ValueAssert.java:454-468 | `assertFunctionalInterfaceMapping` without arguments: the `Function` and varargs adaptations return and, without members, the empty and non-functional interfaces throw a cast error. |
| ValueAssert.DeclaredCheck | truffle/src/com.oracle.truffle.api.test/src/com/oracle/truffle/api/test/polyglot/ValueAssert.java:105-177 | One case of the switch: the value reports the trait and passes that case's conversions and nested checks. |
| ValueAssert.Passes | truffle/src/com.oracle.truffle.api.test/src/com/oracle/truffle/api/test/polyglot/ValueAssert.java:98-191 | `assertValue` with a declaration: every declared case passes, every undeclared trait passes `assertUnsupported`, and the never-supported maps check passes. |
| ValueAssert.Conforms | truffle/src/com.oracle.truffle.api.test/src/com/oracle/truffle/api/test/polyglot/ValueAssert.java:90-92 | `assertValue` without a declaration: the value passes against its own traits. |
| ValueAssert.AssertValue | truffle/src/com.oracle.truffle.api.test/src/com/oracle/truffle/api/test/polyglot/ValueAssert.java:98-191 | The switch over the declared traits, `assertUnsupported` and the never-supported map probes pass together iff the value passes against the set of declared traits. |
| ValueAssert.AssertValueDetected | truffle/src/com.oracle.truffle.api.test/src/com/oracle/truffle/api/test/polyglot/ValueAssert.java:90-92 | Checking a value against its detected traits passes iff the value conforms. |
| ValueAssert.ArrayChecks | truffle/src/com.oracle.truffle.api.test/src/com/oracle/truffle/api/test/polyglot/ValueAssert.java:292-339 | What `assertValueArrayElements` demands: size and element accesses return, elements conform, member keys and members are read, the six view conversions return, the views agree, and the write-back returns. |
| ValueAssert.ViewConversionsComplete | truffle/src/com.oracle.truffle.api.test/src/com/oracle/truffle/api/test/polyglot/ValueAssert.java:313-322 | `as(OBJECT_LIST)`, `as(Object[].class)` and the conversions to the `Object`-, `Long`-, `Integer`- and `Number`-keyed maps all return. |
| ValueAssert.AssertValueArrayElements | truffle/src/com.oracle.truffle.api.test/src/com/oracle/truffle/api/test/polyglot/ValueAssert.java:292-345 | The returned list is the elements in index order. The `Long`-, `Integer`- and `Object`-keyed maps hold what the loops stored. The verdict is `ArrayChecks`: elements conform, the six view conversions return, the views agree, and every read and write-back returns. |
| ValueAssert.ArrayVerdict | truffle/src/com.oracle.truffle.api.test/src/com/oracle/truffle/api/test/polyglot/ValueAssert.java:292-339 | The array verdict is the conjunction of the size, access, element, member and view checks, the view check including that every view conversion returns. |
| ValueAssert.ReadElements | truffle/src/com.oracle.truffle.api.test/src/com/oracle/truffle/api/test/polyglot/ValueAssert.java:299-306 | The element loop reads every element into the list and all three maps. It records whether every read returned and every element conforms. |
| ValueAssert.StoreElement | truffle/src/com.oracle.truffle.api.test/src/com/oracle/truffle/api/test/polyglot/ValueAssert.java:301-304 | One iteration's stores extend the list and the three maps by exactly element i: the `Long` and `Object` maps under i, the `Integer` map under `(int) i`. |
| ValueAssert.CompareViews | truffle/src/com.oracle.truffle.api.test/src/com/oracle/truffle/api/test/polyglot/ValueAssert.java:313-327 | Converting to the six views and comparing them with what was read succeeds iff every conversion returns and the views agree with the value's elements and members. |
| ValueAssert.ReadMembers | truffle/src/com.oracle.truffle.api.test/src/com/oracle/truffle/api/test/polyglot/ValueAssert.java:307-311 | On a value with members, lists the keys and adds every member; the `Object`-keyed map becomes the full view. |
| ValueAssert.ReadMemberEntries | truffle/src/com.oracle.truffle.api.test/src/com/oracle/truffle/api/test/polyglot/ValueAssert.java:308-310 | Whatever the key order, the loop adds exactly the member entries to the indexed ones. |
| ValueAssert.WriteBack | truffle/src/com.oracle.truffle.api.test/src/com/oracle/truffle/api/test/polyglot/ValueAssert.java:336-339 | Writing each element back leaves the value unchanged, and succeeds iff the array is empty or both element accesses return. |
| Conformance.PassingDeclarationIsExact | truffle/src/com.oracle.truffle.api.test/src/com/oracle/truffle/api/test/polyglot/ValueAssert.java:105-198 | A value passes against a declared set of traits only if that set is exactly the value's traits. |
| Conformance.DeclaredCheckNeedsTrait | truffle/src/com.oracle.truffle.api.test/src/com/oracle/truffle/api/test/polyglot/ValueAssert.java:105-177 | Each case of the switch requires the value to report that trait. |
| Conformance.DetectedTraitsAreConformance | truffle/src/com.oracle.truffle.api.test/src/com/oracle/truffle/api/test/polyglot/ValueAssert.java:90-92 | Passing against the detected traits is the same as conforming. |
| Conformance.NumberChecksDecideFitsFromLong | truffle/src/com.oracle.truffle.api.test/src/com/oracle/truffle/api/test/polyglot/ValueAssert.java:415-419 | When `fitsInLong` holds, `fitsInByte`, `fitsInShort` and `fitsInInt` of a passing number each hold iff the `long` value lies in that range. |
| Conformance.NumberChecksMonotoneFromLong | truffle/src/com.oracle.truffle.api.test/src/com/oracle/truffle/api/test/polyglot/ValueAssert.java:415-419 | Given `fitsInLong`, fitting a narrower integral type implies fitting every wider one. |
| Conformance.NumberChecksDecideFitsFromInt | truffle/src/com.oracle.truffle.api.test/src/com/oracle/truffle/api/test/polyglot/ValueAssert.java:407-410 | When `fitsInInt` holds, `fitsInByte` and `fitsInShort` each hold iff the `int` value lies in that range. |
| Conformance.NarrowAnswersAloneAreUnchecked | truffle/src/com.oracle.truffle.api.test/src/com/oracle/truffle/api/test/polyglot/ValueAssert.java:395-405 | A number that fits in a byte but denies fitting in a short or a long still passes: the consistency laws only run from a wider affirmative answer. |
| Conformance.NumberChecksRejectUnfitAccessors | truffle/src/com.oracle.truffle.api.test/src/com/oracle/truffle/api/test/polyglot/ValueAssert.java:395-422 | In a passing number, an integral accessor throws iff its `fitsIn*` is false, and it throws a cast error. |
| Conformance.UndeclaredNumberFailsEveryConversion | truffle/src/com.oracle.truffle.api.test/src/com/oracle/truffle/api/test/polyglot/ValueAssert.java:201-228 | An undeclared number answers no `fitsIn*`, and all 17 numeric accessors and conversions throw a cast error. |
| Conformance.UndeclaredCallsFail | truffle/src/com.oracle.truffle.api.test/src/com/oracle/truffle/api/test/polyglot/ValueAssert.java:248-263 | An undeclared `execute` or `newInstance` throws an unsupported-operation error. The `Function` and varargs adaptations must fail with a cast error when both call capabilities are absent, and are not probed otherwise. |
| Conformance.NeverSupportedMapsFailWithCastError | truffle/src/com.oracle.truffle.api.test/src/com/oracle/truffle/api/test/polyglot/ValueAssert.java:182-190 | Outside null values and host maps, maps keyed by `Byte`, `Short`, `Float`, `Double` and `CharSequence` all throw a cast error. |
| Conformance.NeverSupportedMapsSkipped | truffle/src/com.oracle.truffle.api.test/src/com/oracle/truffle/api/test/polyglot/ValueAssert.java:182 | Null values and host `Map` objects pass the never-supported map check unprobed. |
| Conformance.IntKeyedAgreesBelowIntRange | truffle/src/com.oracle.truffle.api.test/src/com/oracle/truffle/api/test/polyglot/ValueAssert.java:303-304 | Up to 2^31 elements, the map keyed by `(int) i` equals the map keyed by `i`. |
| Conformance.PassingArrayConvertsToViews | truffle/src/com.oracle.truffle.api.test/src/com/oracle/truffle/api/test/polyglot/ValueAssert.java:313-327 | A conforming array value converts to all six views and they agree with its elements and members: a throwing `as(LONG_OBJECT_MAP)` fails the oracle. |
| Conformance.AgreeingViewsLayout | truffle/src/com.oracle.truffle.api.test/src/com/oracle/truffle/api/test/polyglot/ValueAssert.java:299-327 | When the views agree: the `Object`-keyed view holds element i under index i and, for a value with members, each member under its name; the `Number` view equals the `Long` view; below 2^31 elements so does the `Integer` view. |
| Conformance.WellBehavedValuesConform | truffle/src/com.oracle.truffle.api.test/src/com/oracle/truffle/api/test/polyglot/ValueAssert.java:90-191 | Completeness of the oracle: a value conforms when it and every element and member within it follow the reference table of failures, have consistent integral answers and have agreeing views. |
| Conformance.ContractPassesOwnChecks | truffle/src/com.oracle.truffle.api.test/src/com/oracle/truffle/api/test/polyglot/ValueAssert.java:105-190 | Such a value passes its own checks once its elements and members conform. |
| Conformance.ContractPassesNeverSupportedMaps | truffle/src/com.oracle.truffle.api.test/src/com/oracle/truffle/api/test/polyglot/ValueAssert.java:182-190 | Following the reference table implies passing the never-supported map check. |
| Conformance.ContractPassesUnsupported | truffle/src/com.oracle.truffle.api.test/src/com/oracle/truffle/api/test/polyglot/ValueAssert.java:193-289 | Following the reference table implies passing the unsupported check of each absent trait. |
| Conformance.ProbeIsMarked | truffle/src/com.oracle.truffle.api.test/src/com/oracle/truffle/api/test/polyglot/ValueAssert.java:200-285 | Every operation probed for an absent trait is one the reference table marks as failing. |
| Conformance.NumberProbeIsMarked | truffle/src/com.oracle.truffle.api.test/src/com/oracle/truffle/api/test/polyglot/ValueAssert.java:201-228 | The same for the 17 numeric probes. |
| Conformance.ContractPassesDeclared | truffle/src/com.oracle.truffle.api.test/src/com/oracle/truffle/api/test/polyglot/ValueAssert.java:105-177 | Following the contract implies passing the switch case of each present trait. |
| Conformance.ContractPassesBoolean | truffle/src/com.oracle.truffle.api.test/src/com/oracle/truffle/api/test/polyglot/ValueAssert.java:110-115 | A boolean following the table converts to `boolean` and `Boolean`. |
| Conformance.ContractPassesString | truffle/src/com.oracle.truffle.api.test/src/com/oracle/truffle/api/test/polyglot/ValueAssert.java:116-119 | A string following the table converts to `String`. |
| Conformance.ContractPassesHandle | truffle/src/com.oracle.truffle.api.test/src/com/oracle/truffle/api/test/polyglot/ValueAssert.java:153-176 | A host object, proxy or native pointer following the table hands out what it wraps. |
| Conformance.ContractPassesMembers | truffle/src/com.oracle.truffle.api.test/src/com/oracle/truffle/api/test/polyglot/ValueAssert.java:164-172 | A value with conforming members passes the members case. |
| Conformance.MemberOperationsComplete | truffle/src/com.oracle.truffle.api.test/src/com/oracle/truffle/api/test/polyglot/ValueAssert.java:167-168 | On a value with members following the table, `getMemberKeys` returns, and `getMember` returns whenever there is a member key to read. |
| Conformance.ContractPassesCalls | truffle/src/com.oracle.truffle.api.test/src/com/oracle/truffle/api/test/polyglot/ValueAssert.java:132-151 | An executable or instantiable value following the table passes its case. |
| Conformance.ContractPassesFunctionalMapping | truffle/src/com.oracle.truffle.api.test/src/com/oracle/truffle/api/test/polyglot/ValueAssert.java:462-468 | Such a value adapts to `Function` and the varargs interface. Without members, the empty and non-functional interfaces fail with a cast error. |
| Conformance.ArrayOperationsComplete | truffle/src/com.oracle.truffle.api.test/src/com/oracle/truffle/api/test/polyglot/ValueAssert.java:299-300 | On an array following the table, `getArraySize` returns, and `getArrayElement` and `setArrayElement` return whenever the array is non-empty. |
| Conformance.ViewConversionsReturn | truffle/src/com.oracle.truffle.api.test/src/com/oracle/truffle/api/test/polyglot/ValueAssert.java:313-322 | On an array following the table, the six view conversions return. |
| Conformance.ListConversionsReturn | truffle/src/com.oracle.truffle.api.test/src/com/oracle/truffle/api/test/polyglot/ValueAssert.java:313-314 | On an array following the table, `as(OBJECT_LIST)` and `as(Object[].class)` return. |
| Conformance.MapConversionsReturn | truffle/src/com.oracle.truffle.api.test/src/com/oracle/truffle/api/test/polyglot/ValueAssert.java:319-322 | On an array following the table, the `Object`-, `Long`-, `Integer`- and `Number`-keyed map conversions return. |
| Conformance.ArrayChecksFromParts | truffle/src/com.oracle.truffle.api.test/src/com/oracle/truffle/api/test/polyglot/ValueAssert.java:292-339 | An array passes `assertValueArrayElements` under these conditions: its size query returns; element access returns when it is non-empty; its key listing returns and, when there are keys, its member reads return; its view conversions return; its views agree; its elements conform. |
| Conformance.MustFail | truffle/src/com.oracle.truffle.api.test/src/com/oracle/truffle/api/test/polyglot/ValueAssert.java:200-285 | The reference table's failing half: each operation `assertUnsupported` probes must throw when the capability governing it is absent; each numeric accessor and conversion when the `fitsIn*` answer for its width is false; the never-supported maps when probed. The list and array views are never marked failing. The empty and non-functional interface adaptations are marked failing on every value without members, although the oracle probes them only on executable or instantiable values (ValueAssert.java:465-467), so the table is stricter there than the oracle. |
| Conformance.MustComplete | truffle/src/com.oracle.truffle.api.test/src/com/oracle/truffle/api/test/polyglot/ValueAssert.java:105-177 | The reference table's returning half: exactly the operations the switch and `assertValueArrayElements` call and expect to return. These are: the conversions of a present boolean, string, handle or call capability; the `asByte` .. `asDouble` accessors whose `fitsIn*` is true; `getMemberKeys`, and `getMember` when there are keys; the size query; element access on a non-empty array; the six views of an array. Left free are a number's `as(Class)` conversions, `hasMember`, `putMember`, `execute`, `newInstance`, `as(Character.class)`, the interface adaptations and the views of a non-array. |
| Conformance.TableIsConsistent | truffle/src/com.oracle.truffle.api.test/src/com/oracle/truffle/api/test/polyglot/ValueAssert.java:105-285 | No operation is marked both failing and returning, so the table can be followed. |
| Conformance.TableLeavesUnprobedFree | truffle/src/com.oracle.truffle.api.test/src/com/oracle/truffle/api/test/polyglot/ValueAssert.java:105-177 | The table does not require these: that any number converts by `as(byte.class)` or `as(Number.class)`; that a value without member keys answers `getMember`; that an empty array answers element access; that a string converts to `Character`; that a non-array converts to any list or map view. Nor does it require a non-array to refuse the list view. |
| Conformance.ContractPassesNumberChecks | truffle/src/com.oracle.truffle.api.test/src/com/oracle/truffle/api/test/polyglot/ValueAssert.java:392-422 | A number with consistent integral answers that follows the table passes `assertValueNumber`. |

## Left out

- PolyglotValue.Value: a value is a finite tree, so it can never contain itself. On a guest object that reaches itself through `getMember` or `getArrayElement`, the Java oracle recurses until the stack overflows; the model has no such value.
- PolyglotValue.Value: each operation has one outcome for the whole value, whatever its argument. A value where only `getArrayElement(3)` throws, or only `getMember("x")`, cannot be expressed.
- Conformance.WellBehavedValuesConform: completeness is proved for these finite values with argument-independent outcomes only, for the two reasons above. It is a sufficient condition: `IntegralReport` also asks that narrower `fitsIn*` answers follow from the `long` value and that `asShort`/`asInt` equal it, which the oracle does not check.
- Java reflection is abstracted as records and an explicit closed class hierarchy. Annotation inheritance and meta-annotations are not modelled.
- The `volatile Object impl` field of `HostAccess` (a lazily computed engine handle) is not modelled.
- `HostAccess.toString` and the declaration of the `Export` annotation are not modelled.
- The iteration order of the policy's linked collections is a parameter of `AllowsAccess`, which is proved to give the same answer for every order.
- The `null` collections of the placeholder policy behind `newBuilder()` are modelled as `None`. No operation of the model decides anything with that placeholder.
- Floating-point checks are not modelled: `fitsInFloat`/`fitsInDouble` only have to agree with their accessors. The `(float) doubleValue` comparison with its `fitsInInt` exception is left out.
- Values are immutable data, so the model has no aliasing between a value and its views. `as(Object.class)` of an element or member is represented by that element or member.
- ValueAssert.AssertValue: does not model call arguments, so `execute`/`newInstance` with arguments and the recursive check of their results are left out. They call into guest code.
- ValueAssert.DeclaredCheck: the switch cases check only that conversions return. The payload equalities, the single-character `Character` check and the `Proxy` `instanceof` checks are not modelled (details below).
- ValueAssert.Passes: without call arguments, and without the `toString`, `getMetaObject` and `as(Value.class)` checks (details below).
- ValueAssert.Conforms: inherits the omissions of `Passes`.
- ValueAssert.ArrayChecks: leaves out the final `as(Object.class)` check and the writes into the returned `List` views (details below).
- ValueAssert.FunctionalMappingChecks: leaves out the `as(Object.class)` to `Function` adaptation of a non-host value and the calls through the adapted interfaces.
- ValueAssert.AssertValue: `toString`, `getMetaObject`, `as(Value.class)` and the `assertHostObject` stub are left out. So are the equality of the boolean and string payloads with their boxed conversions, the single-character `Character` check and the `Proxy` `instanceof` checks; only that those conversions return is modelled.
- ValueAssert.AssertValueArrayElements: does not model the final `as(Object.class)` check, which tests that a host object is a Java array or that a guest object is the `Object`-keyed map. It also leaves out the writes into the returned `List` views at the end.
- Conformance.ContractPassesFunctionalMapping: the adaptation of a non-host value through `as(Object.class)` to a `Function`, and the calls through the adapted interfaces, are not modelled.
- JUnit's `assertFails` overloads become the outcome table of a value: an operation either returns or throws a cast error or an unsupported-operation error.
- `TypeLiteral`, `Context` and the real `Value` implementation are not part of this model. The value is the record of its observable answers.
- The order of `expectedTypes` and repeated entries in it do not change the verdict, so the passing predicate takes the set of declared traits. `AssertValue` itself walks the sequence.

=== FILE: conformance.dfy ===
/**
  What the oracle establishes about a value that passes it, and which values pass it.
*/
module Conformance {
  import opened JavaIntegers
  import opened PolyglotValue
  import opened ValueAssert

  // ---------------------------------------------------------------------------------------
  // What passing tells about the value
  // ---------------------------------------------------------------------------------------

  /** A value passes against a declared set of traits only if the set is exactly the value's
      own traits: a declared trait the value lacks fails its case of the switch, and a trait
      the value has but was not declared fails its case of `assertUnsupported`. */
  lemma PassingDeclarationIsExact(v: Value, expected: set<Trait>)
    requires Passes(v, expected)
    ensures expected == v.traits
  {
    forall t | t in expected ensures t in v.traits {
      DeclaredCheckNeedsTrait(v, t);
    }
  }

  lemma DeclaredCheckNeedsTrait(v: Value, t: Trait)
    requires DeclaredCheck(v, t)
    ensures t in v.traits
  {
  }

  /** Checking a value against the traits `detectSupportedTypes` lists is checking it for
      conformance. */
  lemma DetectedTraitsAreConformance(v: Value)
    ensures Passes(v, set t | t in Detected(v)) <==> Conforms(v)
  {
    DetectedListsEachTraitOnce(v);
    assert (set t | t in Detected(v)) == v.traits;
  }

  /** When `fitsInLong()` holds, the oracle forces every narrower `fitsIn*` answer to be
      exactly "the `long` value lies in that type's range". */
  lemma NumberChecksDecideFitsFromLong(v: Value)
    requires NumberChecks(v) && LongKind in v.number.fits
    ensures ByteKind in v.number.fits <==> -0x80 <= v.number.asLong < 0x80
    ensures ShortKind in v.number.fits <==> -0x8000 <= v.number.asLong < 0x8000
    ensures IntKind in v.number.fits <==> -0x8000_0000 <= v.number.asLong < 0x8000_0000
  {
    ByteCastIdentityExactlyInRange(v.number.asLong);
    ShortCastIdentityExactlyInRange(v.number.asLong);
    IntCastIdentityExactlyInRange(v.number.asLong);
  }

  /** Hence, given `fitsInLong()`, the integral answers are monotone: fitting a narrower
      type implies fitting every wider one. */
  lemma NumberChecksMonotoneFromLong(v: Value)
    requires NumberChecks(v) && LongKind in v.number.fits
    ensures ByteKind in v.number.fits ==> ShortKind in v.number.fits
    ensures ShortKind in v.number.fits ==> IntKind in v.number.fits
  {
    NumberChecksDecideFitsFromLong(v);
  }

  /** The same from `fitsInInt()` alone, read through the `int` value. */
  lemma NumberChecksDecideFitsFromInt(v: Value)
    requires NumberChecks(v) && IntKind in v.number.fits
    ensures ByteKind in v.number.fits <==> -0x80 <= v.number.asInt < 0x80
    ensures ShortKind in v.number.fits <==> -0x8000 <= v.number.asInt < 0x8000
  {
    ByteCastIdentityExactlyInRange(v.number.asInt);
    ShortCastIdentityExactlyInRange(v.number.asInt);
  }

  /** Without a wider affirmative answer nothing ties the narrow answers together: a number
      that fits in a byte but claims not to fit in a short, int or long passes the oracle. */
  lemma NarrowAnswersAloneAreUnchecked()
    ensures exists v :: NumberChecks(v) && ByteKind in v.number.fits
                        && ShortKind !in v.number.fits && LongKind !in v.number.fits
  {
    var report := NumberReport({ByteKind}, 0, 0, 0, 0);
    var throws := map[AsShort := CastError, AsInt := CastError, AsLong := CastError,
                      AsFloat := CastError, AsDouble := CastError];
    var views := Views([], [], map[], map[], map[], map[]);
    var v := Value({Number}, report, throws, false, [], map[], views);
    assert NumberChecks(v);
  }

  /** A number that passes throws a cast error from exactly the integral accessors whose
      `fitsIn*` answers false. */
  lemma NumberChecksRejectUnfitAccessors(v: Value)
    requires NumberChecks(v)
    ensures ByteKind in v.number.fits <==> AsByte !in v.throws
    ensures ShortKind in v.number.fits <==> AsShort !in v.throws
    ensures IntKind in v.number.fits <==> AsInt !in v.throws
    ensures LongKind in v.number.fits <==> AsLong !in v.throws
    ensures forall op | op in [AsByte, AsShort, AsInt, AsLong] && op in v.throws ::
              v.throws[op] == CastError
  {
  }

  /** An undeclared number answers no `fitsIn*` affirmatively, and every numeric accessor and
      conversion throws a cast error. */
  lemma UndeclaredNumberFailsEveryConversion(v: Value)
    requires UnsupportedCheck(v, Number)
    ensures Number !in v.traits && forall kind: NumericKind :: kind !in v.number.fits
    ensures forall op | op in UnsupportedProbes(v.traits, Number) ::
              op in v.throws && v.throws[op] == CastError
    ensures |UnsupportedProbes(v.traits, Number)| == 17
  {
  }

  /** An undeclared call capability makes the call throw an unsupported-operation error;
      the adaptation to `Function` is expected to fail with a cast error only when the other
      call capability is absent too, and is not probed otherwise. */
  lemma UndeclaredCallsFail(v: Value, t: Trait)
    requires t == Executable || t == Instantiable
    requires UnsupportedCheck(v, t)
    ensures t == Executable ==> Execute in v.throws && v.throws[Execute] == Unsupported
    ensures t == Instantiable ==> NewInstance in v.throws && v.throws[NewInstance] == Unsupported
    ensures Executable !in v.traits && Instantiable !in v.traits ==>
              && AsFunction in v.throws && v.throws[AsFunction] == CastError
              && AsVarArgsInterface in v.throws && v.throws[AsVarArgsInterface] == CastError
    ensures (Executable in v.traits || Instantiable in v.traits) ==>
              AsFunction !in UnsupportedProbes(v.traits, t)
  {
    var probes := UnsupportedProbes(v.traits, t);
    assert probes[0] in probes;
    if Executable !in v.traits && Instantiable !in v.traits {
      assert probes[1] in probes && probes[2] in probes;
    }
  }

  /** Outside null values and host maps, a passing value throws a cast error for every map
      key type in `NEVER_SUPPORTED_MAPS`; for a null value or a host map nothing is probed. */
  lemma NeverSupportedMapsFailWithCastError(v: Value)
    requires NeverSupportedMapsCheck(v)
    ensures ProbesNeverSupportedMaps(v) ==>
      forall key | key in {ByteKey, ShortKey, FloatKey, DoubleKey, CharSequenceKey} ::
        AsMap(key) in v.throws && v.throws[AsMap(key)] == CastError
  {
  }

  lemma NeverSupportedMapsSkipped(v: Value)
    requires Null in v.traits || (HostObject in v.traits && v.hostObjectIsMap)
    ensures NeverSupportedMapsCheck(v)
  {
  }

  // ---------------------------------------------------------------------------------------
  // The views of an array value
  // ---------------------------------------------------------------------------------------

  /** While every index fits in an `int`, the `Integer`-keyed map the element loop fills holds
      the same entries as the `Long`-keyed one. */
  lemma {:induction false} IntKeyedAgreesBelowIntRange(elements: seq<Value>, n: nat)
    requires n <= |elements| && n <= IntHalf
    ensures IntKeyed(elements, n) == IndexMap(elements[..n])
  {
    if n > 0 {
      IntKeyedAgreesBelowIntRange(elements, n - 1);
      IntCastIdentityExactlyInRange(n - 1);
      assert IndexMap(elements[..n - 1])[n - 1 := elements[n - 1]] == IndexMap(elements[..n]);
    }
  }

  /** An array passes only if its list, array and map conversions all return and agree with
      what its elements and members are. */
  lemma PassingArrayConvertsToViews(v: Value)
    requires Conforms(v) && ArrayElements in v.traits
    ensures ViewConversionsComplete(v) && ViewsAgree(v)
  {
    assert DeclaredCheck(v, ArrayElements);
  }

  /** The `Object`-keyed view holds each element under its index and, when the value has
      members, each member under its name; the `Long`-, `Number`- and (below 2^31 elements)
      `Integer`-keyed views hold the elements alone. */
  lemma AgreeingViewsLayout(v: Value)
    requires ViewsAgree(v)
    ensures forall i :: IndexKey(i) in v.views.objectMap <==> 0 <= i < |v.elements|
    ensures forall i | 0 <= i < |v.elements| :: v.views.objectMap[IndexKey(i)] == v.elements[i]
    ensures forall name :: NameKey(name) in v.views.objectMap <==>
              Members in v.traits && name in v.members
    ensures forall name | Members in v.traits && name in v.members ::
              v.views.objectMap[NameKey(name)] == v.members[name]
    ensures v.views.numberMap == v.views.longMap
    ensures |v.elements| <= IntHalf ==> v.views.intMap == v.views.longMap
  {
    if |v.elements| <= IntHalf {
      IntKeyedAgreesBelowIntRange(v.elements, |v.elements|);
      assert v.elements[..|v.elements|] == v.elements;
    }
  }

  // ---------------------------------------------------------------------------------------
  // Which values pass
  // ---------------------------------------------------------------------------------------

  /** The numeric contract: a `long` value, when there is one, decides every integral
      `fitsIn*` answer, and `asShort()`/`asInt()` return it unchanged when they may;
      without a `long` value no integral answer is affirmative. */
  predicate IntegralReport(n: NumberReport) {
    if LongKind in n.fits then
      && (ByteKind in n.fits <==> -0x80 <= n.asLong < 0x80)
      && (ShortKind in n.fits <==> -0x8000 <= n.asLong < 0x8000)
      && (IntKind in n.fits <==> -0x8000_0000 <= n.asLong < 0x8000_0000)
      && (ShortKind in n.fits ==> n.asShort == n.asLong)
      && (IntKind in n.fits ==> n.asInt == n.asLong)
    else
      ByteKind !in n.fits && ShortKind !in n.fits && IntKind !in n.fits
  }

  /** The reference table, first half: whether `op` must throw on `v`, decided by the one
      capability (or `fitsIn*` answer) that governs it. Each numeric conversion follows the
      `fitsIn*` answer for its width; conversions to the map types no value supports must
      throw unless the value is null or a host `Map`. */
  predicate MustFail(v: Value, op: Operation) {
    var traits, fits := v.traits, v.number.fits;
    match op
    case AsByte => ByteKind !in fits
    case AsShort => ShortKind !in fits
    case AsInt => IntKind !in fits
    case AsLong => LongKind !in fits
    case AsFloat => FloatKind !in fits
    case AsDouble => DoubleKind !in fits
    case AsNumberClass => Number !in traits
    case AsPrimitiveByte => ByteKind !in fits
    case AsBoxedByte => ByteKind !in fits
    case AsPrimitiveShort => ShortKind !in fits
    case AsBoxedShort => ShortKind !in fits
    case AsPrimitiveInt => IntKind !in fits
    case AsBoxedInteger => IntKind !in fits
    case AsPrimitiveLong => LongKind !in fits
    case AsBoxedLong => LongKind !in fits
    case AsPrimitiveFloat => FloatKind !in fits
    case AsBoxedFloat => FloatKind !in fits
    case AsBoolean => Boolean !in traits
    case AsPrimitiveBoolean => Boolean !in traits
    case AsBoxedBoolean => Boolean !in traits
    case AsString => String !in traits
    case AsStringClass => String !in traits
    case AsCharacterClass => String !in traits
    case HasMember => Members !in traits
    case GetMember => Members !in traits
    case PutMember => Members !in traits
    case GetMemberKeys => Members !in traits
    case Execute => Executable !in traits
    case NewInstance => Instantiable !in traits
    case AsFunction => Executable !in traits && Instantiable !in traits
    case AsVarArgsInterface => Executable !in traits && Instantiable !in traits
    case AsEmptyInterface => Members !in traits
    case AsNonFunctionalInterface => Members !in traits
    case GetArrayElement => ArrayElements !in traits
    case SetArrayElement => ArrayElements !in traits
    case GetArraySize => ArrayElements !in traits
    case AsObjectList => false
    case AsObjectArray => false
    case AsHostObject => HostObject !in traits
    case AsProxyObject => ProxyObject !in traits
    case AsNativePointer => Native !in traits
    case AsMap(key) => key in NeverSupportedMaps && ProbesNeverSupportedMaps(v)
  }

  /** The map views an array converts to: keyed by `Object`, `Long`, `Integer` or `Number`. */
  predicate IsViewKey(key: MapKeyType) {
    key == ObjectKey || key == LongKey || key == IntegerKey || key == NumberKey
  }

  /** The reference table, second half: whether `op` must return on `v`. Only the operations
      the oracle itself calls and expects to return are marked. Left free are `hasMember`,
      `putMember`, `execute`, `newInstance`, the `as(Class)` conversions of a number (the
      oracle calls only the `asByte` .. `asDouble` accessors), the conversion of a string to
      `Character`, the empty and non-functional interface adaptations, `getMember` on a value
      without member keys, element access on an empty array, and every list or map view of a
      value that is not an array. */
  predicate MustComplete(v: Value, op: Operation) {
    var traits, fits := v.traits, v.number.fits;
    match op
    case AsByte => ByteKind in fits
    case AsShort => ShortKind in fits
    case AsInt => IntKind in fits
    case AsLong => LongKind in fits
    case AsFloat => FloatKind in fits
    case AsDouble => DoubleKind in fits
    case AsNumberClass => false
    case AsPrimitiveByte => false
    case AsBoxedByte => false
    case AsPrimitiveShort => false
    case AsBoxedShort => false
    case AsPrimitiveInt => false
    case AsBoxedInteger => false
    case AsPrimitiveLong => false
    case AsBoxedLong => false
    case AsPrimitiveFloat => false
    case AsBoxedFloat => false
    case AsBoolean => Boolean in traits
    case AsPrimitiveBoolean => Boolean in traits
    case AsBoxedBoolean => Boolean in traits
    case AsString => String in traits
    case AsStringClass => String in traits
    case AsCharacterClass => false
    case HasMember => false
    case GetMember => Members in traits && v.members.Keys != {}
    case PutMember => false
    case GetMemberKeys => Members in traits
    case Execute => false
    case NewInstance => false
    case AsFunction => Executable in traits || Instantiable in traits
    case AsVarArgsInterface => Executable in traits || Instantiable in traits
    case AsEmptyInterface => false
    case AsNonFunctionalInterface => false
    case GetArrayElement => ArrayElements in traits && |v.elements| > 0
    case SetArrayElement => ArrayElements in traits && |v.elements| > 0
    case GetArraySize => ArrayElements in traits
    case AsObjectList => ArrayElements in traits
    case AsObjectArray => ArrayElements in traits
    case AsHostObject => HostObject in traits
    case AsProxyObject => ProxyObject in traits
    case AsNativePointer => Native in traits
    case AsMap(key) => IsViewKey(key) && ArrayElements in traits
  }

  /** No operation is marked both ways, so the table can be followed. */
  lemma TableIsConsistent(v: Value, op: Operation)
    ensures !(MustFail(v, op) && MustComplete(v, op))
  {
  }

  /** The table leaves free what the oracle does not call and expect to return: a number may
      refuse `as(byte.class)` and `as(Number.class)` whatever it fits, a value without member
      keys may refuse `getMember`, an empty array may refuse element access, a string may refuse
      `as(Character.class)` (the one-character check of the oracle is not part of this model),
      and a value that is not an array may refuse every list and map view. */
  lemma TableLeavesUnprobedFree(v: Value, key: MapKeyType)
    ensures !MustComplete(v, AsPrimitiveByte) && !MustComplete(v, AsBoxedByte)
    ensures !MustComplete(v, AsNumberClass)
    ensures v.members.Keys == {} ==> !MustComplete(v, GetMember)
    ensures |v.elements| == 0 ==> !MustComplete(v, GetArrayElement) && !MustComplete(v, SetArrayElement)
    ensures !MustComplete(v, AsCharacterClass)
    ensures ArrayElements !in v.traits ==> !MustComplete(v, AsMap(key)) && !MustComplete(v, AsObjectList)
    ensures ArrayElements !in v.traits ==> !MustFail(v, AsObjectList)
  {
  }

  /** A value following the table: every operation marked failing throws the exception
      expected of it, and every operation marked returning returns. Unmarked operations may
      do either. */
  ghost predicate ThrowsFollowTable(v: Value) {
    forall op ::
      && (MustFail(v, op) ==> FailsAsExpected(v, op))
      && (MustComplete(v, op) ==> Completes(v, op))
  }

  /** The value's own answers follow the polyglot contract: the operations that throw, and
      with which exception, are those of the reference table; the numeric answers are
      consistent; and the views of an array agree with its elements and members. */
  ghost predicate AnswersFollowContract(v: Value) {
    && ThrowsFollowTable(v)
    && (Number in v.traits ==> IntegralReport(v.number))
    && (Number !in v.traits ==> v.number.fits == {})
    && (ArrayElements in v.traits ==> ViewsAgree(v))
  }

  /** A value whose answers, and those of every element and member value within it, follow
      the polyglot contract. */
  ghost predicate WellBehaved(v: Value)
    decreases v
  {
    && AnswersFollowContract(v)
    && (forall i | 0 <= i < |v.elements| :: WellBehaved(v.elements[i]))
    && (forall key | key in v.members :: WellBehaved(v.members[key]))
  }

  /** Completeness of the oracle: every well-behaved value passes `assertValue`. */
  lemma {:induction false} WellBehavedValuesConform(v: Value)
    requires WellBehaved(v)
    ensures Conforms(v)
    decreases v
  {
    forall i | 0 <= i < |v.elements| ensures Conforms(v.elements[i]) {
      WellBehavedValuesConform(v.elements[i]);
    }
    forall key | key in v.members ensures Conforms(v.members[key]) {
      WellBehavedValuesConform(v.members[key]);
    }
    ContractPassesOwnChecks(v);
  }

  /** The checks of `assertValue` that concern the value itself, given that its elements and
      members conform. */
  lemma ContractPassesOwnChecks(v: Value)
    requires AnswersFollowContract(v)
    requires forall i | 0 <= i < |v.elements| :: Conforms(v.elements[i])
    requires forall key | key in v.members :: Conforms(v.members[key])
    ensures Conforms(v)
  {
    forall t | t in v.traits ensures DeclaredCheck(v, t) {
      ContractPassesDeclared(v, t);
    }
    forall t | t !in v.traits ensures UnsupportedCheck(v, t) {
      ContractPassesUnsupported(v, t);
    }
    ContractPassesNeverSupportedMaps(v);
  }

  /** Outside null values and host maps, every never-supported map conversion fails. */
  lemma ContractPassesNeverSupportedMaps(v: Value)
    requires ThrowsFollowTable(v)
    ensures NeverSupportedMapsCheck(v)
  {
    if ProbesNeverSupportedMaps(v) {
      forall key | key in NeverSupportedMaps ensures FailsAsExpected(v, AsMap(key)) {
        MarkedOperationsFail(v, AsMap(key));
      }
    }
  }

  lemma ContractPassesUnsupported(v: Value, t: Trait)
    requires ThrowsFollowTable(v) && t !in v.traits
    requires Number !in v.traits ==> v.number.fits == {}
    ensures UnsupportedCheck(v, t)
  {
    forall op | op in UnsupportedProbes(v.traits, t) ensures FailsAsExpected(v, op) {
      ProbeIsMarked(v, t, op);
      MarkedOperationsFail(v, op);
    }
  }

  /** Every probe of an absent capability is marked as failing by the reference table. */
  lemma ProbeIsMarked(v: Value, t: Trait, op: Operation)
    requires t !in v.traits && op in UnsupportedProbes(v.traits, t)
    requires Number !in v.traits ==> v.number.fits == {}
    ensures MustFail(v, op)
  {
    match t
    case Number =>
      NumberProbeIsMarked(v, op);
    case Boolean =>
    case String =>
    case Members =>
    case Executable =>
    case Instantiable =>
    case Null =>
    case ArrayElements =>
    case HostObject =>
    case ProxyObject =>
    case Native =>
  }

  lemma NumberProbeIsMarked(v: Value, op: Operation)
    requires Number !in v.traits && v.number.fits == {}
    requires op in UnsupportedProbes(v.traits, Number)
    ensures MustFail(v, op)
  {
  }

  /** A value following the table throws the expected exception from every operation marked
      failing, and returns from every operation marked returning. */
  lemma MarkedOperationsFail(v: Value, op: Operation)
    requires ThrowsFollowTable(v) && MustFail(v, op)
    ensures FailsAsExpected(v, op)
  {
  }

  lemma RequiredOperationsComplete(v: Value, op: Operation)
    requires ThrowsFollowTable(v) && MustComplete(v, op)
    ensures Completes(v, op)
  {
  }

  lemma ContractPassesDeclared(v: Value, t: Trait)
    requires AnswersFollowContract(v) && t in v.traits
    requires forall i | 0 <= i < |v.elements| :: Conforms(v.elements[i])
    requires forall key | key in v.members :: Conforms(v.members[key])
    ensures DeclaredCheck(v, t)
  {
    match t
    case Number =>
      ContractPassesNumberChecks(v);
    case Members =>
      ContractPassesMembers(v);
    case Executable =>
      ContractPassesCalls(v, t);
    case Instantiable =>
      ContractPassesCalls(v, t);
    case ArrayElements =>
      ArrayOperationsComplete(v);
      ViewConversionsReturn(v);
      if Members in v.traits {
        MemberOperationsComplete(v);
      }
      ArrayChecksFromParts(v);
    case Boolean =>
      ContractPassesBoolean(v);
    case String =>
      ContractPassesString(v);
    case Null =>
    case _ =>
      ContractPassesHandle(v, t);
  }

  /** A boolean value converts to `boolean` and `Boolean`. */
  lemma ContractPassesBoolean(v: Value)
    requires ThrowsFollowTable(v) && Boolean in v.traits
    ensures DeclaredCheck(v, Boolean)
  {
    RequiredOperationsComplete(v, AsBoolean);
    RequiredOperationsComplete(v, AsBoxedBoolean);
    RequiredOperationsComplete(v, AsPrimitiveBoolean);
  }

  /** A string value converts to `String`. */
  lemma ContractPassesString(v: Value)
    requires ThrowsFollowTable(v) && String in v.traits
    ensures DeclaredCheck(v, String)
  {
    RequiredOperationsComplete(v, AsString);
    RequiredOperationsComplete(v, AsStringClass);
  }

  /** A host object, proxy or native pointer hands out what it wraps. */
  lemma ContractPassesHandle(v: Value, t: Trait)
    requires ThrowsFollowTable(v) && t in v.traits
    requires t == HostObject || t == ProxyObject || t == Native
    ensures DeclaredCheck(v, t)
  {
    var op := if t == HostObject then AsHostObject
      else if t == ProxyObject then AsProxyObject
      else AsNativePointer;
    RequiredOperationsComplete(v, op);
  }

  lemma ContractPassesMembers(v: Value)
    requires ThrowsFollowTable(v) && Members in v.traits
    requires forall key | key in v.members :: Conforms(v.members[key])
    ensures DeclaredCheck(v, Members)
  {
    MemberOperationsComplete(v);
  }

  /** A value with members lists its keys and reads its members. */
  lemma MemberOperationsComplete(v: Value)
    requires ThrowsFollowTable(v) && Members in v.traits
    ensures Completes(v, GetMemberKeys)
    ensures v.members.Keys != {} ==> Completes(v, GetMember)
  {
    RequiredOperationsComplete(v, GetMemberKeys);
    if v.members.Keys != {} {
      RequiredOperationsComplete(v, GetMember);
    }
  }

  /** Executable and instantiable values complete every call-related probe. */
  lemma ContractPassesCalls(v: Value, t: Trait)
    requires ThrowsFollowTable(v) && t in v.traits && (t == Executable || t == Instantiable)
    ensures DeclaredCheck(v, t)
  {
    RequiredOperationsComplete(v, AsFunction);
    ContractPassesFunctionalMapping(v);
  }

  /** An array value completes the operations `assertValueArrayElements` performs on it. */
  lemma ArrayOperationsComplete(v: Value)
    requires ThrowsFollowTable(v) && ArrayElements in v.traits
    ensures Completes(v, GetArraySize)
    ensures |v.elements| > 0 ==> Completes(v, GetArrayElement) && Completes(v, SetArrayElement)
  {
    RequiredOperationsComplete(v, GetArraySize);
    if |v.elements| > 0 {
      RequiredOperationsComplete(v, GetArrayElement);
      RequiredOperationsComplete(v, SetArrayElement);
    }
  }

  /** An array value converts to its list, array and map views. */
  lemma ViewConversionsReturn(v: Value)
    requires ThrowsFollowTable(v) && ArrayElements in v.traits
    ensures ViewConversionsComplete(v)
  {
    ListConversionsReturn(v);
    MapConversionsReturn(v);
  }

  lemma ListConversionsReturn(v: Value)
    requires ThrowsFollowTable(v) && ArrayElements in v.traits
    ensures Completes(v, AsObjectList) && Completes(v, AsObjectArray)
  {
    RequiredOperationsComplete(v, AsObjectList);
    RequiredOperationsComplete(v, AsObjectArray);
  }

  lemma MapConversionsReturn(v: Value)
    requires ThrowsFollowTable(v) && ArrayElements in v.traits
    ensures Completes(v, AsMap(ObjectKey)) && Completes(v, AsMap(LongKey))
    ensures Completes(v, AsMap(IntegerKey)) && Completes(v, AsMap(NumberKey))
  {
    RequiredOperationsComplete(v, AsMap(ObjectKey));
    RequiredOperationsComplete(v, AsMap(LongKey));
    RequiredOperationsComplete(v, AsMap(IntegerKey));
    RequiredOperationsComplete(v, AsMap(NumberKey));
  }

  lemma ArrayChecksFromParts(v: Value)
    requires ArrayElements in v.traits && ViewConversionsComplete(v) && ViewsAgree(v)
    requires Completes(v, GetArraySize)
    requires |v.elements| > 0 ==> Completes(v, GetArrayElement) && Completes(v, SetArrayElement)
    requires Members in v.traits ==> Completes(v, GetMemberKeys)
    requires Members in v.traits && v.members.Keys != {} ==> Completes(v, GetMember)
    requires forall i | 0 <= i < |v.elements| :: Conforms(v.elements[i])
    ensures ArrayChecks(v)
  {
  }

  lemma ContractPassesFunctionalMapping(v: Value)
    requires ThrowsFollowTable(v)
    requires Executable in v.traits || Instantiable in v.traits
    ensures FunctionalMappingChecks(v)
  {
    RequiredOperationsComplete(v, AsFunction);
    RequiredOperationsComplete(v, AsVarArgsInterface);
    if Members !in v.traits {
      MarkedOperationsFail(v, AsEmptyInterface);
      MarkedOperationsFail(v, AsNonFunctionalInterface);
    }
  }

  lemma ContractPassesNumberChecks(v: Value)
    requires ThrowsFollowTable(v) && Number in v.traits && IntegralReport(v.number)
    ensures NumberChecks(v)
  {
    var n := v.number;
    if LongKind in n.fits {
      ByteCastIdentityExactlyInRange(n.asLong);
      ShortCastIdentityExactlyInRange(n.asLong);
      IntCastIdentityExactlyInRange(n.asLong);
    }
    if ShortKind in n.fits {
      ByteCastIdentityExactlyInRange(n.asShort);
    }
    if IntKind in n.fits {
      ByteCastIdentityExactlyInRange(n.asInt);
      ShortCastIdentityExactlyInRange(n.asInt);
    }
  }
}

=== FILE: host_access.dfy ===
/**
  The host-access policy of a polyglot context: the decision whether guest code may reach
  a host member (a field, a method or a constructor).

  Reflection is abstracted. A member is a record of its kind, its signature, the class that
  declares it and the annotation types it carries; `Class.isAssignableFrom` is an explicit
  class hierarchy in which each class lists all of its supertypes.
*/
module HostAccessPolicy {

  type ClassName = string

  /** `java.lang.Object`, the supertype of every class. */
  const ObjectClass: ClassName := "java.lang.Object"

  /** The marker annotation used by the `EXPLICIT` preset. */
  const ExportAnnotation: ClassName := "org.graalvm.polyglot.HostAccess$Export"

  /** A Java reference that may be `null`. */
  datatype Option<T> = None | Some(value: T)

  // ---------------------------------------------------------------------------------------
  // Abstract reflection
  // ---------------------------------------------------------------------------------------

  datatype ElementKind = Field | Method | Constructor | OtherElement

  /** An `AnnotatedElement`: the signature stands for the name and parameter types that make
      two reflective members equal. */
  datatype AnnotatedElement = AnnotatedElement(
    kind: ElementKind,
    signature: string,
    declaringClass: ClassName,
    annotations: set<ClassName>)

  /** `java.lang.reflect.Executable`: a method or a constructor. */
  predicate IsExecutable(e: AnnotatedElement) {
    e.kind == Method || e.kind == Constructor
  }

  /** For each class, the set of all its supertypes (the hierarchy is stored closed). */
  datatype Hierarchy = Hierarchy(supertypes: map<ClassName, set<ClassName>>)

  /** The stored supertype sets are transitively closed and `Object` has no supertype but itself. */
  ghost predicate WellFormed(h: Hierarchy) {
    && (forall c, d :: c in h.supertypes && d in h.supertypes[c] && d in h.supertypes ==>
          h.supertypes[d] <= h.supertypes[c])
    && (ObjectClass in h.supertypes ==> h.supertypes[ObjectClass] <= {ObjectClass})
  }

  /** `sup.isAssignableFrom(sub)`: `sub` is `sup` or one of its subclasses. */
  predicate IsAssignableFrom(h: Hierarchy, sup: ClassName, sub: ClassName) {
    || sup == sub
    || sup == ObjectClass
    || (sub in h.supertypes && sup in h.supertypes[sub])
  }

  /** The subtype relation is reflexive and transitive. */
  lemma SubtypeTransitive(h: Hierarchy, a: ClassName, b: ClassName, c: ClassName)
    requires WellFormed(h)
    requires IsAssignableFrom(h, a, b) && IsAssignableFrom(h, b, c)
    ensures IsAssignableFrom(h, a, c)
  {
    if a != b && a != ObjectClass && b != c {
      assert b in h.supertypes && a in h.supertypes[b];
      assert b != ObjectClass;
      assert c in h.supertypes && b in h.supertypes[c];
      assert h.supertypes[b] <= h.supertypes[c];
    }
  }

  /** The class a member is declared in; any other element counts as declared in `Object`. */
  function GetDeclaringClass(member: AnnotatedElement): ClassName {
    match member.kind
    case Field => member.declaringClass
    case Method => member.declaringClass
    case Constructor => member.declaringClass
    case OtherElement => ObjectClass
  }

  /** Whether a field, method or constructor carries the annotation; other elements never do. */
  predicate HasAnnotation(member: AnnotatedElement, annotationType: ClassName) {
    match member.kind
    case Field => annotationType in member.annotations
    case Method => annotationType in member.annotations
    case Constructor => annotationType in member.annotations
    case OtherElement => false
  }

  // ---------------------------------------------------------------------------------------
  // The immutable policy and its decision
  // ---------------------------------------------------------------------------------------

  /** A built policy. The collections are `None` only in the placeholder instance that a new
      builder is attached to; every built policy holds copies of its builder's collections. */
  datatype HostAccess = HostAccess(
    annotations: Option<set<ClassName>>,
    excludeTypes: Option<map<ClassName, bool>>,
    members: Option<set<AnnotatedElement>>,
    name: Option<string>,
    allowPublic: bool,
    allowArrayAccess: bool,
    allowListAccess: bool)

  /** One exclusion entry: with `includeSubclasses` it bans the class and all its subclasses,
      without it only the class itself. */
  predicate ExclusionMatches(h: Hierarchy, ban: ClassName, includeSubclasses: bool, owner: ClassName) {
    if includeSubclasses then IsAssignableFrom(h, ban, owner) else ban == owner
  }

  /** Some exclusion entry of the policy matches the owner class. */
  predicate Excluded(p: HostAccess, h: Hierarchy, owner: ClassName) {
    p.excludeTypes.Some? &&
    exists ban | ban in p.excludeTypes.value :: ExclusionMatches(h, ban, p.excludeTypes.value[ban], owner)
  }

  predicate ExplicitlyAllowed(p: HostAccess, member: AnnotatedElement) {
    p.members.Some? && member in p.members.value
  }

  predicate CarriesRegisteredAnnotation(p: HostAccess, member: AnnotatedElement) {
    p.annotations.Some? &&
    exists a | a in p.annotations.value :: HasAnnotation(member, a)
  }

  /** The access decision, independent of any iteration order: exclusions take precedence,
      then public access, the explicit member set and the registered annotations allow. */
  predicate Allows(p: HostAccess, h: Hierarchy, member: AnnotatedElement) {
    && !Excluded(p, h, GetDeclaringClass(member))
    && (p.allowPublic || ExplicitlyAllowed(p, member) || CarriesRegisteredAnnotation(p, member))
  }

  /** `allowsAccess`: scans the exclusion entries, then the annotation types, in the iteration
      orders given (those of the policy's linked collections), with early returns. Whatever the
      orders, the result is `Allows`. */
  method AllowsAccess(p: HostAccess, h: Hierarchy, member: AnnotatedElement,
                      excludeOrder: seq<ClassName>, annotationOrder: seq<ClassName>)
    returns (allowed: bool)
    requires p.excludeTypes.Some? ==> forall c :: c in excludeOrder <==> c in p.excludeTypes.value
    requires p.annotations.Some? ==> forall a :: a in annotationOrder <==> a in p.annotations.value
    ensures allowed == Allows(p, h, member)
  {
    if p.excludeTypes.Some? {
      var excludeTypes := p.excludeTypes.value;
      var owner := GetDeclaringClass(member);
      var i := 0;
      while i < |excludeOrder|
        invariant 0 <= i <= |excludeOrder|
        invariant forall j :: 0 <= j < i ==> !ExclusionMatches(h, excludeOrder[j], excludeTypes[excludeOrder[j]], owner)
      {
        var ban := excludeOrder[i];
        if excludeTypes[ban] {
          if IsAssignableFrom(h, ban, owner) {
            return false;
          }
        } else {
          if ban == owner {
            return false;
          }
        }
        i := i + 1;
      }
    }
    if p.allowPublic {
      return true;
    }
    if p.members.Some? && member in p.members.value {
      return true;
    }
    if p.annotations.Some? {
      var i := 0;
      while i < |annotationOrder|
        invariant 0 <= i <= |annotationOrder|
        invariant forall j :: 0 <= j < i ==> !HasAnnotation(member, annotationOrder[j])
      {
        if HasAnnotation(member, annotationOrder[i]) {
          return true;
        }
        i := i + 1;
      }
    }
    return false;
  }

  // ---------------------------------------------------------------------------------------
  // Laws of the decision
  // ---------------------------------------------------------------------------------------

  /** An entry that bans a class with its subclasses also bans every class below a subclass. */
  lemma ExclusionCoversSubclassChain(p: HostAccess, h: Hierarchy, ban: ClassName, mid: ClassName,
                                     member: AnnotatedElement)
    requires WellFormed(h)
    requires p.excludeTypes.Some? && ban in p.excludeTypes.value && p.excludeTypes.value[ban]
    requires IsAssignableFrom(h, ban, mid) && IsAssignableFrom(h, mid, GetDeclaringClass(member))
    ensures !Allows(p, h, member)
  {
    SubtypeTransitive(h, ban, mid, GetDeclaringClass(member));
    assert ExclusionMatches(h, ban, p.excludeTypes.value[ban], GetDeclaringClass(member));
  }

  /** An entry without the subclass flag bans the class itself and no other class. */
  lemma ExactExclusionMatchesOnlyItsClass(h: Hierarchy, ban: ClassName, owner: ClassName)
    ensures ExclusionMatches(h, ban, false, owner) <==> owner == ban
    ensures ExclusionMatches(h, ban, true, owner) <==> IsAssignableFrom(h, ban, owner)
  {
  }

  /** Adding allow rules (annotations, members, public access) never turns an allow into a deny. */
  lemma AllowRulesOnlyAllow(p: HostAccess, q: HostAccess, h: Hierarchy, member: AnnotatedElement)
    requires q.excludeTypes == p.excludeTypes
    requires p.allowPublic ==> q.allowPublic
    requires p.members.Some? ==> q.members.Some? && p.members.value <= q.members.value
    requires p.annotations.Some? ==> q.annotations.Some? && p.annotations.value <= q.annotations.value
    requires Allows(p, h, member)
    ensures Allows(q, h, member)
  {
    if !p.allowPublic && !ExplicitlyAllowed(p, member) {
      var a :| a in p.annotations.value && HasAnnotation(member, a);
      assert a in q.annotations.value;
    }
  }

  /** Adding exclusion entries never turns a deny into an allow. */
  lemma ExclusionsOnlyDeny(p: HostAccess, q: HostAccess, h: Hierarchy, member: AnnotatedElement)
    requires q == p.(excludeTypes := q.excludeTypes)
    requires p.excludeTypes.Some? ==> q.excludeTypes.Some? && p.excludeTypes.value.Items <= q.excludeTypes.value.Items
    requires Allows(q, h, member)
    ensures Allows(p, h, member)
  {
    if p.excludeTypes.Some? {
      forall ban | ban in p.excludeTypes.value
        ensures !ExclusionMatches(h, ban, p.excludeTypes.value[ban], GetDeclaringClass(member))
      {
        assert (ban, p.excludeTypes.value[ban]) in q.excludeTypes.value.Items;
      }
    }
  }

  /** An element that is not a field, method or constructor is judged as declared in `Object`
      and never matches an annotation. */
  lemma NonMemberJudgedAsObject(p: HostAccess, h: Hierarchy, element: AnnotatedElement)
    requires element.kind == OtherElement
    ensures Allows(p, h, element) <==>
      !Excluded(p, h, ObjectClass) && (p.allowPublic || ExplicitlyAllowed(p, element))
  {
  }

  /** Banning `Object` with its subclasses denies every member. */
  lemma DenyingObjectDeniesAll(p: HostAccess, h: Hierarchy, member: AnnotatedElement)
    requires p.excludeTypes.Some? && ObjectClass in p.excludeTypes.value && p.excludeTypes.value[ObjectClass]
    ensures !Allows(p, h, member)
  {
    assert ExclusionMatches(h, ObjectClass, true, GetDeclaringClass(member));
  }

  // ---------------------------------------------------------------------------------------
  // The builder
  // ---------------------------------------------------------------------------------------

  /** What a chained builder call does: return the builder, or throw on a `null` argument. */
  datatype BuilderCall = Returns(builder: Builder) | ThrowsNullPointer

  /** The mutable builder. Its rule methods only add to the annotation set, the member set and
      the exclusion map (an exclusion for a class already present replaces its flag). */
  class Builder {
    var annotations: set<ClassName>
    var excludeTypes: map<ClassName, bool>
    var members: set<AnnotatedElement>
    var allowPublic: bool
    var allowListAccess: bool
    var allowArrayAccess: bool
    var name: Option<string>

    /** The policy `Build` would produce now. */
    function Snapshot(): HostAccess
      reads this
    {
      HostAccess(Some(annotations), Some(excludeTypes), Some(members), name,
                 allowPublic, allowArrayAccess, allowListAccess)
    }

    /** `newBuilder()`: no rules, no flags, no name. */
    constructor ()
      ensures Snapshot() == HostAccess(Some({}), Some(map[]), Some({}), None, false, false, false)
    {
      annotations := {};
      excludeTypes := map[];
      members := {};
      allowPublic := false;
      allowListAccess := false;
      allowArrayAccess := false;
      name := None;
    }

    method AllowAccessAnnotatedBy(annotation: Option<ClassName>) returns (r: BuilderCall)
      modifies this
      ensures annotation.None? ==> r == ThrowsNullPointer && Snapshot() == old(Snapshot())
      ensures annotation.Some? ==> (r == Returns(this) &&
        Snapshot() == old(Snapshot()).(annotations := Some(old(annotations) + {annotation.value})))
    {
      if annotation.None? {
        return ThrowsNullPointer;
      }
      annotations := annotations + {annotation.value};
      return Returns(this);
    }

    method AllowPublicAccess(allow: bool) returns (r: BuilderCall)
      modifies this
      ensures r == Returns(this) && Snapshot() == old(Snapshot()).(allowPublic := allow)
    {
      allowPublic := allow;
      return Returns(this);
    }

    /** `allowAccess(Executable)`: allows one method or constructor. */
    method AllowAccessExecutable(element: Option<AnnotatedElement>) returns (r: BuilderCall)
      requires element.Some? ==> IsExecutable(element.value)
      modifies this
      ensures element.None? ==> r == ThrowsNullPointer && Snapshot() == old(Snapshot())
      ensures element.Some? ==> (r == Returns(this) &&
        Snapshot() == old(Snapshot()).(members := Some(old(members) + {element.value})))
    {
      if element.None? {
        return ThrowsNullPointer;
      }
      members := members + {element.value};
      return Returns(this);
    }

    /** `allowAccess(Field)`: allows one field. */
    method AllowAccessField(element: Option<AnnotatedElement>) returns (r: BuilderCall)
      requires element.Some? ==> element.value.kind == Field
      modifies this
      ensures element.None? ==> r == ThrowsNullPointer && Snapshot() == old(Snapshot())
      ensures element.Some? ==> (r == Returns(this) &&
        Snapshot() == old(Snapshot()).(members := Some(old(members) + {element.value})))
    {
      if element.None? {
        return ThrowsNullPointer;
      }
      members := members + {element.value};
      return Returns(this);
    }

    /** `denyAccess(clazz)`: the same as `denyAccess(clazz, true)`. */
    method DenyAccess(clazz: Option<ClassName>) returns (r: BuilderCall)
      modifies this
      ensures clazz.None? ==> r == ThrowsNullPointer && Snapshot() == old(Snapshot())
      ensures clazz.Some? ==> (r == Returns(this) &&
        Snapshot() == old(Snapshot()).(excludeTypes := Some(old(excludeTypes)[clazz.value := true])))
    {
      r := DenyAccessWith(clazz, true);
    }

    /** `denyAccess(clazz, includeSubclasses)`: a later call for the same class replaces the flag. */
    method DenyAccessWith(clazz: Option<ClassName>, includeSubclasses: bool) returns (r: BuilderCall)
      modifies this
      ensures clazz.None? ==> r == ThrowsNullPointer && Snapshot() == old(Snapshot())
      ensures clazz.Some? ==> (r == Returns(this) &&
        Snapshot() == old(Snapshot()).(excludeTypes := Some(old(excludeTypes)[clazz.value := includeSubclasses])))
    {
      if clazz.None? {
        return ThrowsNullPointer;
      }
      excludeTypes := excludeTypes[clazz.value := includeSubclasses];
      return Returns(this);
    }

    method AllowArrayAccess(arrayAccess: bool) returns (r: BuilderCall)
      modifies this
      ensures r == Returns(this) && Snapshot() == old(Snapshot()).(allowArrayAccess := arrayAccess)
    {
      allowArrayAccess := arrayAccess;
      return Returns(this);
    }

    method AllowListAccess(listAccess: bool) returns (r: BuilderCall)
      modifies this
      ensures r == Returns(this) && Snapshot() == old(Snapshot()).(allowListAccess := listAccess)
    {
      allowListAccess := listAccess;
      return Returns(this);
    }

    /** The package-private `name(givenName)`; a `null` name is accepted. */
    method Name(givenName: Option<string>) returns (r: BuilderCall)
      modifies this
      ensures r == Returns(this) && Snapshot() == old(Snapshot()).(name := givenName)
    {
      name := givenName;
      return Returns(this);
    }

    /** `build()`: a policy holding copies of the current rules; being a value, it is not
        affected by later calls on this builder. */
    method Build() returns (p: HostAccess)
      ensures p == Snapshot()
      ensures p.annotations.Some? && p.excludeTypes.Some? && p.members.Some?
    {
      p := HostAccess(Some(annotations), Some(excludeTypes), Some(members), name,
                      allowPublic, allowArrayAccess, allowListAccess);
    }
  }

  // ---------------------------------------------------------------------------------------
  // The presets, built through the builder
  // ---------------------------------------------------------------------------------------

  /** `EXPLICIT`: allows exactly the members annotated with `Export`. */
  method ExplicitPolicy() returns (p: HostAccess)
    ensures forall h, member :: Allows(p, h, member) <==> HasAnnotation(member, ExportAnnotation)
    ensures !p.allowArrayAccess && !p.allowListAccess && p.name == Some("HostAccess.EXPLICIT")
  {
    var b := new Builder();
    var _ := b.AllowAccessAnnotatedBy(Some(ExportAnnotation));
    var _ := b.Name(Some("HostAccess.EXPLICIT"));
    p := b.Build();
    forall h, member ensures Allows(p, h, member) <==> HasAnnotation(member, ExportAnnotation) {
      assert p.annotations.value == {ExportAnnotation};
      assert !Excluded(p, h, GetDeclaringClass(member));
    }
  }

  /** `ALL`: allows every member and enables array and list access. */
  method AllPolicy() returns (p: HostAccess)
    ensures forall h, member :: Allows(p, h, member)
    ensures p.allowArrayAccess && p.allowListAccess && p.name == Some("HostAccess.ALL")
  {
    var b := new Builder();
    var _ := b.AllowPublicAccess(true);
    var _ := b.AllowArrayAccess(true);
    var _ := b.AllowListAccess(true);
    var _ := b.Name(Some("HostAccess.ALL"));
    p := b.Build();
  }

  /** `NONE`: denies every member. */
  method NonePolicy() returns (p: HostAccess)
    ensures forall h, member :: !Allows(p, h, member)
    ensures !p.allowArrayAccess && !p.allowListAccess && p.name == Some("HostAccess.NONE")
  {
    var b := new Builder();
    var _ := b.Name(Some("HostAccess.NONE"));
    p := b.Build();
  }

  // ---------------------------------------------------------------------------------------
  // Scenarios through the builder and the decision procedure
  // ---------------------------------------------------------------------------------------

  /** A method allowed explicitly, by annotation and by public access is still denied once its
      declaring class lies below a class banned with its subclasses. */
  method ExclusionOverridesEveryAllow(h: Hierarchy, member: AnnotatedElement, banned: ClassName)
    returns (allowed: bool)
    requires IsExecutable(member) && IsAssignableFrom(h, banned, member.declaringClass)
    ensures !allowed
  {
    var b := new Builder();
    var _ := b.AllowPublicAccess(true);
    var _ := b.AllowAccessExecutable(Some(member));
    var _ := b.AllowAccessAnnotatedBy(Some(ExportAnnotation));
    var _ := b.DenyAccess(Some(banned));
    var p := b.Build();
    assert ExclusionMatches(h, banned, p.excludeTypes.value[banned], GetDeclaringClass(member));
    allowed := AllowsAccess(p, h, member, [banned], [ExportAnnotation]);
  }

  /** Two `denyAccess` calls for one class leave one entry holding the last flag. */
  method RepeatedDenyKeepsLastFlag(clazz: ClassName, first: bool, last: bool) returns (p: HostAccess)
    ensures p.excludeTypes == Some(map[clazz := last])
  {
    var b := new Builder();
    var _ := b.DenyAccessWith(Some(clazz), first);
    var _ := b.DenyAccessWith(Some(clazz), last);
    p := b.Build();
    assert map[][clazz := first][clazz := last] == map[clazz := last];
  }

  /** A policy built before an exclusion is added to its builder keeps allowing what it allowed;
      a policy built afterwards denies the excluded class. The policy is a value here, so the
      first half follows from value semantics alone: it states the effect of the defensive
      copies the Java constructor makes, but it would hold of the model even without them. */
  method BuildSnapshotsRules(h: Hierarchy, member: AnnotatedElement, banned: ClassName)
    returns (before: bool, after: bool)
    ensures before
    ensures after <==> !IsAssignableFrom(h, banned, GetDeclaringClass(member))
  {
    var b := new Builder();
    var _ := b.AllowPublicAccess(true);
    var first := b.Build();
    var _ := b.DenyAccess(Some(banned));
    var second := b.Build();
    before := AllowsAccess(first, h, member, [], []);
    after := AllowsAccess(second, h, member, [banned], []);
    assert second.excludeTypes.value == map[banned := true];
    if IsAssignableFrom(h, banned, GetDeclaringClass(member)) {
      assert ExclusionMatches(h, banned, second.excludeTypes.value[banned], GetDeclaringClass(member));
    }
  }
}

=== FILE: java_integers.dfy ===
/**
  Java's fixed-width integral types and its narrowing casts `(byte)`, `(short)` and `(int)`:
  keep the low bits of the two's-complement representation and sign-extend them.
*/
module JavaIntegers {

  const ByteHalf: nat := 0x80
  const ShortHalf: nat := 0x8000
  const IntHalf: nat := 0x8000_0000
  const LongHalf: nat := 0x8000_0000_0000_0000

  type JByte = x: int | -0x80 <= x < 0x80
  type JShort = x: int | -0x8000 <= x < 0x8000
  type JInt = x: int | -0x8000_0000 <= x < 0x8000_0000
  type JLong = x: int | -0x8000_0000_0000_0000 <= x < 0x8000_0000_0000_0000

  /** The two's-complement narrowing of `x` to a type of `2 * half` values. */
  function Narrow(x: int, half: int): (r: int)
    requires half > 0
    ensures -half <= r < half
  {
    var m := x % (2 * half);
    if m >= half then m - 2 * half else m
  }

  /** `(byte) x`: the byte with the same low 8 bits as `x`. */
  function ToByte(x: int): (r: JByte)
    ensures r % 0x100 == x % 0x100
  {
    Narrow(x, ByteHalf)
  }

  /** `(short) x`: the short with the same low 16 bits as `x`. */
  function ToShort(x: int): (r: JShort)
    ensures r % 0x1_0000 == x % 0x1_0000
  {
    Narrow(x, ShortHalf)
  }

  /** `(int) x`: the int with the same low 32 bits as `x`. */
  function ToInt(x: int): (r: JInt)
    ensures r % 0x1_0000_0000 == x % 0x1_0000_0000
  {
    Narrow(x, IntHalf)
  }

  /** Narrowing then widening gives back `x` exactly when `x` lies in the target range. */
  lemma ByteCastIdentityExactlyInRange(x: int)
    ensures ToByte(x) == x <==> -0x80 <= x < 0x80
  {
  }

  lemma ShortCastIdentityExactlyInRange(x: int)
    ensures ToShort(x) == x <==> -0x8000 <= x < 0x8000
  {
  }

  lemma IntCastIdentityExactlyInRange(x: int)
    ensures ToInt(x) == x <==> -0x8000_0000 <= x < 0x8000_0000
  {
  }
}

=== FILE: value_assert.dfy ===
/**
  The foreign-value conformance oracle: what `ValueAssert.assertValue` demands of a value,
  given the traits it is declared to have. A check that passes is `true`; a check the Java
  code would fail with an `AssertionError` (or an unexpected exception) is `false`.
*/
module ValueAssert {
  import opened JavaIntegers
  import opened PolyglotValue

  // ---------------------------------------------------------------------------------------
  // detectSupportedTypes
  // ---------------------------------------------------------------------------------------

  /** `[t]` when the predicate for `t` answers true, otherwise nothing. */
  function Include(t: Trait, traits: set<Trait>): seq<Trait> {
    if t in traits then [t] else []
  }

  /** The traits `detectSupportedTypes` reports, asked in its order. */
  function Detected(v: Value): seq<Trait> {
    Include(Boolean, v.traits) + Include(HostObject, v.traits) + Include(Native, v.traits)
    + Include(String, v.traits) + Include(Number, v.traits) + Include(Members, v.traits)
    + Include(ArrayElements, v.traits) + Include(Instantiable, v.traits)
    + Include(Executable, v.traits) + Include(Null, v.traits) + Include(ProxyObject, v.traits)
  }

  /** `s` lists, once each, exactly the traits in `wanted`. */
  predicate ListsExactly(s: seq<Trait>, wanted: set<Trait>) {
    NoDuplicates(s) && forall t :: t in s <==> t in wanted
  }

  /** One step of the detection: asking about a trait not asked before. */
  lemma DetectionStep(s: seq<Trait>, x: Trait, asked: set<Trait>, traits: set<Trait>)
    requires ListsExactly(s, asked * traits) && x !in asked
    ensures ListsExactly(s + Include(x, traits), (asked + {x}) * traits)
  {
    if x in traits {
      var s' := s + [x];
      forall i, j | 0 <= i < j < |s'| ensures s'[i] != s'[j] {
        if j == |s| {
          assert s[i] in s;
        }
      }
    }
  }

  /** Once every trait has been asked about, the listing covers all of `traits`. */
  lemma AskedAll(s: seq<Trait>, asked: set<Trait>, traits: set<Trait>)
    requires ListsExactly(s, asked * traits)
    requires Boolean in asked && HostObject in asked && Native in asked && String in asked
    requires Number in asked && Members in asked && ArrayElements in asked
    requires Instantiable in asked && Executable in asked && Null in asked && ProxyObject in asked
    ensures ListsExactly(s, traits)
  {
    forall t | t in traits ensures t in asked {
      match t
      case Null =>
      case _ =>
    }
  }

  /** The detected traits are exactly the value's traits, each listed once. */
  lemma {:induction false} DetectedListsEachTraitOnce(v: Value)
    ensures ListsExactly(Detected(v), v.traits)
  {
    DetectionStep([], Boolean, {}, v.traits);
    assert [] + Include(Boolean, v.traits) == Include(Boolean, v.traits);
    var s, asked := Include(Boolean, v.traits), {Boolean};
    DetectionStep(s, HostObject, asked, v.traits);
    s, asked := s + Include(HostObject, v.traits), asked + {HostObject};
    DetectionStep(s, Native, asked, v.traits);
    s, asked := s + Include(Native, v.traits), asked + {Native};
    DetectionStep(s, String, asked, v.traits);
    s, asked := s + Include(String, v.traits), asked + {String};
    DetectionStep(s, Number, asked, v.traits);
    s, asked := s + Include(Number, v.traits), asked + {Number};
    DetectionStep(s, Members, asked, v.traits);
    s, asked := s + Include(Members, v.traits), asked + {Members};
    DetectionStep(s, ArrayElements, asked, v.traits);
    s, asked := s + Include(ArrayElements, v.traits), asked + {ArrayElements};
    DetectionStep(s, Instantiable, asked, v.traits);
    s, asked := s + Include(Instantiable, v.traits), asked + {Instantiable};
    DetectionStep(s, Executable, asked, v.traits);
    s, asked := s + Include(Executable, v.traits), asked + {Executable};
    DetectionStep(s, Null, asked, v.traits);
    s, asked := s + Include(Null, v.traits), asked + {Null};
    DetectionStep(s, ProxyObject, asked, v.traits);
    s, asked := s + Include(ProxyObject, v.traits), asked + {ProxyObject};
    AskedAll(s, asked, v.traits);
    assert s == Detected(v);
  }

  /** One test of `detectSupportedTypes`: appends `t` when the value reports it. */
  method AddIfSupported(v: Value, t: Trait, types: seq<Trait>) returns (r: seq<Trait>)
    ensures r == types + Include(t, v.traits)
  {
    r := types;
    if t in v.traits {
      r := r + [t];
    }
  }

  /** `detectSupportedTypes`: appends each trait whose predicate answers true. */
  method DetectSupportedTypes(v: Value) returns (types: seq<Trait>)
    ensures types == Detected(v)
    ensures ListsExactly(types, v.traits)
  {
    types := [];
    types := AddIfSupported(v, Boolean, types);
    assert [] + Include(Boolean, v.traits) == Include(Boolean, v.traits);
    types := AddIfSupported(v, HostObject, types);
    types := AddIfSupported(v, Native, types);
    types := AddIfSupported(v, String, types);
    types := AddIfSupported(v, Number, types);
    types := AddIfSupported(v, Members, types);
    types := AddIfSupported(v, ArrayElements, types);
    types := AddIfSupported(v, Instantiable, types);
    types := AddIfSupported(v, Executable, types);
    types := AddIfSupported(v, Null, types);
    types := AddIfSupported(v, ProxyObject, types);
    DetectedListsEachTraitOnce(v);
  }

  // ---------------------------------------------------------------------------------------
  // assertValueNumber
  // ---------------------------------------------------------------------------------------

  /** An accessor must return when the matching `fitsIn*` answers true and throw a cast error
      when it answers false. */
  predicate AccessorAgrees(v: Value, kind: NumericKind, accessor: Operation) {
    if kind in v.number.fits then Completes(v, accessor) else FailsAsExpected(v, accessor)
  }

  /** `assertValueNumber`: the accessors agree with `fitsIn*`, and each integral value read
      back decides the narrower `fitsIn*` answers by whether a narrowing cast preserves it. */
  predicate NumberChecks(v: Value) {
    var n := v.number;
    && Number in v.traits
    && AccessorAgrees(v, ByteKind, AsByte)
    && AccessorAgrees(v, ShortKind, AsShort)
    && (ShortKind in n.fits ==> (ToByte(n.asShort) == n.asShort <==> ByteKind in n.fits))
    && AccessorAgrees(v, IntKind, AsInt)
    && (IntKind in n.fits ==>
          && (ToByte(n.asInt) == n.asInt <==> ByteKind in n.fits)
          && (ToShort(n.asInt) == n.asInt <==> ShortKind in n.fits))
    && AccessorAgrees(v, LongKind, AsLong)
    && (LongKind in n.fits ==>
          && (ToByte(n.asLong) == n.asLong <==> ByteKind in n.fits)
          && (ToShort(n.asLong) == n.asLong <==> ShortKind in n.fits)
          && (ToInt(n.asLong) == n.asLong <==> IntKind in n.fits))
    && AccessorAgrees(v, FloatKind, AsFloat)
    && AccessorAgrees(v, DoubleKind, AsDouble)
  }

  // ---------------------------------------------------------------------------------------
  // assertUnsupported
  // ---------------------------------------------------------------------------------------

  /** The operations `assertUnsupported` expects to fail when `t` is not supported, given the
      value's actual traits (a function conversion is only probed when neither calls nor
      instantiation are possible). */
  function UnsupportedProbes(traits: set<Trait>, t: Trait): seq<Operation> {
    match t
    case Number =>
      [AsByte, AsShort, AsInt, AsLong, AsFloat, AsDouble,
       AsNumberClass, AsPrimitiveByte, AsBoxedByte, AsPrimitiveShort, AsBoxedShort,
       AsPrimitiveInt, AsBoxedInteger, AsPrimitiveLong, AsBoxedLong,
       AsPrimitiveFloat, AsBoxedFloat]
    case Boolean => [AsBoolean, AsPrimitiveBoolean, AsBoxedBoolean]
    case String => [AsString, AsStringClass, AsCharacterClass]
    case Members => [HasMember, GetMember, PutMember, GetMemberKeys]
    case Executable =>
      [Execute] + (if Instantiable in traits then [] else [AsFunction, AsVarArgsInterface])
    case Instantiable =>
      [NewInstance] + (if Executable in traits then [] else [AsFunction, AsVarArgsInterface])
    case Null => []
    case ArrayElements => [GetArrayElement, SetArrayElement, GetArraySize]
    case HostObject => [AsHostObject]
    case ProxyObject => [AsProxyObject]
    case Native => [AsNativePointer]
  }

  /** One case of `assertUnsupported`: the predicate for `t` answers false (for numbers, every
      `fitsIn*` too) and every probe fails with the expected exception. */
  predicate UnsupportedCheck(v: Value, t: Trait) {
    && t !in v.traits
    && (t == Number ==> v.number.fits == {})
    && forall op | op in UnsupportedProbes(v.traits, t) :: FailsAsExpected(v, op)
  }

  /** `assertUnsupported`: walks `Trait.values()` and checks every trait not in `supported`. */
  method AssertUnsupported(v: Value, supported: seq<Trait>) returns (checked: seq<Trait>, ok: bool)
    ensures forall t :: t in checked <==> t !in supported
    ensures NoDuplicates(checked)
    ensures ok <==> forall t | t !in supported :: UnsupportedCheck(v, t)
  {
    AllTraitsListsEachTraitOnce();
    var supportedSet := set t | t in supported;
    checked, ok := [], true;
    for i := 0 to |AllTraits|
      invariant forall t :: t in checked <==> t in AllTraits[..i] && t !in supportedSet
      invariant NoDuplicates(checked)
      invariant ok <==> forall t | t in checked :: UnsupportedCheck(v, t)
    {
      var unsupportedType := AllTraits[i];
      if unsupportedType in supportedSet {
        continue;
      }
      assert unsupportedType !in checked;
      ok := ok && UnsupportedCheck(v, unsupportedType);
      checked := checked + [unsupportedType];
    }
    assert AllTraits[..|AllTraits|] == AllTraits;
  }

  // ---------------------------------------------------------------------------------------
  // The map views no value may convert to
  // ---------------------------------------------------------------------------------------

  /** `NEVER_SUPPORTED_MAPS`: maps keyed by `Byte`, `Short`, `Float`, `Double`, `CharSequence`. */
  const NeverSupportedMaps: seq<MapKeyType> :=
    [ByteKey, ShortKey, FloatKey, DoubleKey, CharSequenceKey]

  /** The conversions are only probed on a value that is neither null nor a host `Map`. */
  predicate ProbesNeverSupportedMaps(v: Value) {
    (HostObject !in v.traits || !v.hostObjectIsMap) && Null !in v.traits
  }

  predicate NeverSupportedMapsCheck(v: Value) {
    ProbesNeverSupportedMaps(v) ==>
      forall key | key in NeverSupportedMaps :: FailsAsExpected(v, AsMap(key))
  }

  // ---------------------------------------------------------------------------------------
  // The views of an array value
  // ---------------------------------------------------------------------------------------

  /** Elements keyed by their `long` index. */
  function IndexMap(elements: seq<Value>): (m: map<int, Value>)
    ensures forall i :: i in m <==> 0 <= i < |elements|
  {
    map i | 0 <= i < |elements| :: elements[i]
  }

  /** The `Integer`-keyed map the element loop fills: element `i` stored under `(int) i`. */
  function IntKeyed(elements: seq<Value>, n: nat): (m: map<int, Value>)
    requires n <= |elements|
    ensures forall k :: k in m ==> -0x8000_0000 <= k < 0x8000_0000
  {
    if n == 0 then map[] else IntKeyed(elements, n - 1)[ToInt(n - 1) := elements[n - 1]]
  }

  /** Elements keyed by boxed `Long` index, as in the `Map<Object, Object>` view. */
  function IndexObjectMap(elements: seq<Value>): (m: map<ObjectMapKey, Value>)
    ensures forall k :: k in m <==> k.IndexKey? && 0 <= k.index < |elements|
  {
    map k | k in (set i | 0 <= i < |elements| :: IndexKey(i)) :: elements[k.index]
  }

  /** Members keyed by name, as in the `Map<Object, Object>` view. */
  function NameObjectMap(members: map<string, Value>): (m: map<ObjectMapKey, Value>)
    ensures forall k :: k in m <==> k.NameKey? && k.name in members
  {
    map k | k in (set name | name in members :: NameKey(name)) :: members[k.name]
  }

  /** The `Map<Object, Object>` view: indexed elements, then members when there are any. */
  function ObjectMapOf(v: Value): map<ObjectMapKey, Value> {
    IndexObjectMap(v.elements) + (if Members in v.traits then NameObjectMap(v.members) else map[])
  }

  /** The list, array and map views agree with what the element loop reads. */
  predicate ViewsAgree(v: Value) {
    && v.views.list == v.elements
    && v.views.objectArray == v.elements
    && v.views.objectMap == ObjectMapOf(v)
    && v.views.longMap == IndexMap(v.elements)
    && v.views.intMap == IntKeyed(v.elements, |v.elements|)
    && v.views.numberMap == IndexMap(v.elements)
  }

  // ---------------------------------------------------------------------------------------
  // assertValue
  // ---------------------------------------------------------------------------------------

  /** `assertFunctionalInterfaceMapping` without call arguments. */
  predicate FunctionalMappingChecks(v: Value) {
    && Completes(v, AsFunction)
    && Completes(v, AsVarArgsInterface)
    && (Members !in v.traits ==>
          FailsAsExpected(v, AsEmptyInterface) && FailsAsExpected(v, AsNonFunctionalInterface))
  }

  /** `assertValue(context, value)`: the value passes when checked against the traits
      `detectSupportedTypes` reports for it, which are exactly its own traits
      (`DetectedListsEachTraitOnce`). */
  predicate Conforms(v: Value)
    decreases v, 3
  {
    Passes(v, v.traits)
  }

  /** `assertValue(context, value, expectedTypes)` without call arguments; only which traits
      the array names matters, not their order or repetitions. */
  predicate Passes(v: Value, expected: set<Trait>)
    decreases v, 2
  {
    && (forall t | t in expected :: DeclaredCheck(v, t))
    && (forall t | t !in expected :: UnsupportedCheck(v, t))
    && NeverSupportedMapsCheck(v)
  }

  /** One case of the switch over the expected traits. */
  predicate DeclaredCheck(v: Value, t: Trait)
    decreases v, 1
  {
    match t
    case Null => Null in v.traits
    case Boolean =>
      && Boolean in v.traits
      && Completes(v, AsBoolean) && Completes(v, AsBoxedBoolean) && Completes(v, AsPrimitiveBoolean)
    case String => String in v.traits && Completes(v, AsString) && Completes(v, AsStringClass)
    case Number => NumberChecks(v)
    case ArrayElements => ArrayChecks(v)
    case Executable => Executable in v.traits && FunctionalMappingChecks(v)
    case Instantiable =>
      && Instantiable in v.traits
      && Completes(v, AsFunction)
      && (Executable !in v.traits ==> FunctionalMappingChecks(v))
    case HostObject => HostObject in v.traits && Completes(v, AsHostObject)
    case ProxyObject => ProxyObject in v.traits && Completes(v, AsProxyObject)
    case Members =>
      && Members in v.traits
      && Completes(v, GetMemberKeys)
      && (v.members.Keys != {} ==> Completes(v, GetMember))
      && forall key | key in v.members :: Conforms(v.members[key])
    case Native => Native in v.traits && Completes(v, AsNativePointer)
  }

  /** `assertValue(context, value, expectedTypes)` without call arguments: runs the case of
      the switch for each declared trait in turn, then `assertUnsupported` with the same
      declaration, then the never-supported map conversions. */
  method AssertValue(v: Value, expectedTypes: seq<Trait>) returns (ok: bool)
    ensures ok <==> Passes(v, set t | t in expectedTypes)
  {
    ok := true;
    for i := 0 to |expectedTypes|
      invariant ok <==> forall j | 0 <= j < i :: DeclaredCheck(v, expectedTypes[j])
    {
      ok := ok && DeclaredCheck(v, expectedTypes[i]);
    }
    var _, unsupportedOk := AssertUnsupported(v, expectedTypes);
    ok := ok && unsupportedOk && NeverSupportedMapsCheck(v);
  }

  /** `assertValue(context, value)`: checks the value against the traits it reports. */
  method AssertValueDetected(v: Value) returns (ok: bool)
    ensures ok <==> Conforms(v)
  {
    var types := DetectSupportedTypes(v);
    ok := AssertValue(v, types);
    assert (set t | t in types) == v.traits;
  }

  /** `assertValueArrayElements`: every element read conforms, the list, array and map views
      hold what was read, and writing every element back succeeds. */
  predicate ArrayChecks(v: Value)
    decreases v, 0
  {
    && ArrayElements in v.traits
    && Completes(v, GetArraySize)
    && (|v.elements| > 0 ==> Completes(v, GetArrayElement) && Completes(v, SetArrayElement))
    && (forall i | 0 <= i < |v.elements| :: Conforms(v.elements[i]))
    && (Members in v.traits ==>
          Completes(v, GetMemberKeys) && (v.members.Keys != {} ==> Completes(v, GetMember)))
    && ViewConversionsComplete(v)
    && ViewsAgree(v)
  }

  /** The conversions to `List<Object>`, `Object[]` and the `Object`-, `Long`-, `Integer`- and
      `Number`-keyed maps return. */
  predicate ViewConversionsComplete(v: Value) {
    && Completes(v, AsObjectList) && Completes(v, AsObjectArray)
    && Completes(v, AsMap(ObjectKey)) && Completes(v, AsMap(LongKey))
    && Completes(v, AsMap(IntegerKey)) && Completes(v, AsMap(NumberKey))
  }

  lemma IndexMapsExtend(elements: seq<Value>, i: nat)
    requires i < |elements|
    ensures elements[..i] + [elements[i]] == elements[..i + 1]
    ensures IntKeyed(elements, i)[ToInt(i) := elements[i]] == IntKeyed(elements, i + 1)
    ensures IndexMap(elements[..i])[i := elements[i]] == IndexMap(elements[..i + 1])
    ensures IndexObjectMap(elements[..i])[IndexKey(i) := elements[i]]
         == IndexObjectMap(elements[..i + 1])
  {
    var m, m' := IndexObjectMap(elements[..i])[IndexKey(i) := elements[i]], IndexObjectMap(elements[..i + 1]);
    assert forall k | k in m :: k in m' && m[k] == m'[k];
  }

  lemma NameObjectMapExtend(elements: seq<Value>, members: map<string, Value>, keys: set<string>, key: string)
    requires key in keys && keys <= members.Keys
    ensures (IndexObjectMap(elements) + NameObjectMap(members - keys))[NameKey(key) := members[key]]
         == IndexObjectMap(elements) + NameObjectMap(members - (keys - {key}))
  {
  }

  /** `assertValueArrayElements`: reads the elements and member entries, compares the views
      with what was read, and writes every element back. Returns the verdict together with the
      list and maps it filled. */
  method AssertValueArrayElements(v: Value)
    returns (ok: bool, received: seq<Value>, objectMap: map<ObjectMapKey, Value>,
             longMap: map<int, Value>, intMap: map<int, Value>)
    ensures received == v.elements
    ensures objectMap == ObjectMapOf(v)
    ensures longMap == IndexMap(v.elements)
    ensures intMap == IntKeyed(v.elements, |v.elements|)
    ensures ok == ArrayChecks(v)
  {
    var sizeOk := ArrayElements in v.traits && Completes(v, GetArraySize);
    var readOk, elementsOk;
    readOk, elementsOk, received, objectMap, longMap, intMap := ReadElements(v);
    var membersOk;
    membersOk, objectMap := ReadMembers(v, objectMap);
    var viewsOk := CompareViews(v, received, objectMap, longMap, intMap);
    var _, writeOk := WriteBack(v);
    ok := sizeOk && readOk && elementsOk && membersOk && viewsOk && writeOk;
    ArrayVerdict(v, sizeOk, readOk && writeOk, elementsOk, membersOk, viewsOk);
  }

  /** The verdict of `assertValueArrayElements` assembled from its parts. */
  lemma ArrayVerdict(v: Value, sizeOk: bool, accessOk: bool, elementsOk: bool, membersOk: bool,
                     viewsOk: bool)
    requires sizeOk <==> ArrayElements in v.traits && Completes(v, GetArraySize)
    requires accessOk <==>
      (|v.elements| > 0 ==> Completes(v, GetArrayElement) && Completes(v, SetArrayElement))
    requires elementsOk <==> forall j | 0 <= j < |v.elements| :: Conforms(v.elements[j])
    requires membersOk <==> (Members in v.traits ==>
      Completes(v, GetMemberKeys) && (v.members.Keys != {} ==> Completes(v, GetMember)))
    requires viewsOk <==> ViewConversionsComplete(v) && ViewsAgree(v)
    ensures ArrayChecks(v) <==> sizeOk && accessOk && elementsOk && membersOk && viewsOk
  {
  }

  /** The element loop: reads element `i` for every index below the size, appends it to the
      list and stores it under `i` (as `Long` and as `(int) i`), and checks it conforms. */
  method ReadElements(v: Value)
    returns (readOk: bool, elementsOk: bool, received: seq<Value>,
             objectMap: map<ObjectMapKey, Value>, longMap: map<int, Value>, intMap: map<int, Value>)
    ensures readOk <==> |v.elements| == 0 || Completes(v, GetArrayElement)
    ensures elementsOk <==> forall j | 0 <= j < |v.elements| :: Conforms(v.elements[j])
    ensures received == v.elements
    ensures objectMap == IndexObjectMap(v.elements)
    ensures longMap == IndexMap(v.elements)
    ensures intMap == IntKeyed(v.elements, |v.elements|)
  {
    var size := |v.elements|;
    readOk, elementsOk := true, true;
    received, objectMap, longMap, intMap := [], map[], map[], map[];
    var i := 0;
    while i < size
      invariant 0 <= i <= size
      invariant received == v.elements[..i]
      invariant objectMap == IndexObjectMap(v.elements[..i])
      invariant longMap == IndexMap(v.elements[..i])
      invariant intMap == IntKeyed(v.elements, i)
      invariant readOk <==> i == 0 || Completes(v, GetArrayElement)
      invariant elementsOk <==> forall j | 0 <= j < i :: Conforms(v.elements[j])
    {
      readOk := readOk && Completes(v, GetArrayElement);
      var arrayElement := ElementAt(v, i);
      received, objectMap, longMap, intMap :=
        StoreElement(v.elements, i, received, objectMap, longMap, intMap);
      elementsOk := elementsOk && Conforms(arrayElement);
      i := i + 1;
    }
    assert v.elements[..size] == v.elements;
  }

  /** One iteration's stores: element `i` is appended to the list and put under `i` in the
      `Object`- and `Long`-keyed maps and under `(int) i` in the `Integer`-keyed map. */
  method StoreElement(elements: seq<Value>, i: nat, received: seq<Value>,
                      objectMap: map<ObjectMapKey, Value>, longMap: map<int, Value>,
                      intMap: map<int, Value>)
    returns (received': seq<Value>, objectMap': map<ObjectMapKey, Value>,
             longMap': map<int, Value>, intMap': map<int, Value>)
    requires i < |elements|
    requires received == elements[..i] && objectMap == IndexObjectMap(elements[..i])
    requires longMap == IndexMap(elements[..i]) && intMap == IntKeyed(elements, i)
    ensures received' == elements[..i + 1] && objectMap' == IndexObjectMap(elements[..i + 1])
    ensures longMap' == IndexMap(elements[..i + 1]) && intMap' == IntKeyed(elements, i + 1)
  {
    IndexMapsExtend(elements, i);
    var arrayElement := elements[i];
    received' := received + [arrayElement];
    objectMap' := objectMap[IndexKey(i) := arrayElement];
    longMap' := longMap[i := arrayElement];
    intMap' := intMap[ToInt(i) := arrayElement];
  }

  /** The view part of `assertValueArrayElements`: converts the value to the list, array and
      map views, and compares each with what the loops read. */
  method CompareViews(v: Value, received: seq<Value>, objectMap: map<ObjectMapKey, Value>,
                      longMap: map<int, Value>, intMap: map<int, Value>) returns (ok: bool)
    requires received == v.elements && objectMap == ObjectMapOf(v)
    requires longMap == IndexMap(v.elements) && intMap == IntKeyed(v.elements, |v.elements|)
    ensures ok <==> ViewConversionsComplete(v) && ViewsAgree(v)
  {
    ok := Completes(v, AsObjectList) && Completes(v, AsObjectArray);
    ok := ok && received == v.views.list && received == v.views.objectArray;
    ok := ok && Completes(v, AsMap(ObjectKey)) && Completes(v, AsMap(LongKey));
    ok := ok && Completes(v, AsMap(IntegerKey)) && Completes(v, AsMap(NumberKey));
    ok := ok && objectMap == v.views.objectMap && longMap == v.views.longMap;
    ok := ok && intMap == v.views.intMap && longMap == v.views.numberMap;
  }

  /** The member part of `assertValueArrayElements`: on a value with members, lists the keys
      and adds every member entry to the `Object`-keyed map. */
  method ReadMembers(v: Value, indexed: map<ObjectMapKey, Value>)
    returns (membersOk: bool, objectMap: map<ObjectMapKey, Value>)
    requires indexed == IndexObjectMap(v.elements)
    ensures membersOk <==> (Members in v.traits ==>
      Completes(v, GetMemberKeys) && (v.members.Keys != {} ==> Completes(v, GetMember)))
    ensures objectMap == ObjectMapOf(v)
  {
    membersOk, objectMap := true, indexed;
    if Members in v.traits {
      var readsOk;
      readsOk, objectMap := ReadMemberEntries(v, indexed);
      membersOk := Completes(v, GetMemberKeys) && readsOk;
    } else {
      assert objectMap + map[] == objectMap;
    }
  }

  /** The member loop: stores `getMember(key)` under each member key of the `Object`-keyed
      map, in whatever order the keys come. */
  method ReadMemberEntries(v: Value, indexed: map<ObjectMapKey, Value>)
    returns (readsOk: bool, objectMap: map<ObjectMapKey, Value>)
    requires indexed == IndexObjectMap(v.elements)
    ensures readsOk <==> v.members.Keys == {} || Completes(v, GetMember)
    ensures objectMap == indexed + NameObjectMap(v.members)
  {
    objectMap, readsOk := indexed, true;
    var keys := v.members.Keys;
    while keys != {}
      invariant keys <= v.members.Keys
      invariant objectMap == indexed + NameObjectMap(v.members - keys)
      invariant readsOk <==> keys == v.members.Keys || Completes(v, GetMember)
      decreases keys
    {
      var key :| key in keys;
      NameObjectMapExtend(v.elements, v.members, keys, key);
      readsOk := readsOk && Completes(v, GetMember);
      objectMap := objectMap[NameKey(key) := v.members[key]];
      keys := keys - {key};
    }
    assert v.members - keys == v.members;
  }

  /** The write-back loop: `setArrayElement(i, getArrayElement(i))` for every index. Returns the
      value afterwards and whether every call returned. */
  method WriteBack(v: Value) returns (w: Value, ok: bool)
    ensures w == v
    ensures ok <==>
      |v.elements| == 0 || (Completes(v, GetArrayElement) && Completes(v, SetArrayElement))
  {
    w, ok := v, true;
    var i := 0;
    while i < |w.elements|
      invariant 0 <= i <= |w.elements|
      invariant w == v
      invariant ok <==>
        i == 0 || (Completes(v, GetArrayElement) && Completes(v, SetArrayElement))
    {
      ok := ok && Completes(w, GetArrayElement) && Completes(w, SetArrayElement);
      w := WithElement(w, i, ElementAt(w, i));
      i := i + 1;
    }
  }
}

=== FILE: value_model.dfy ===
/**
  A polyglot value as a conformance test observes it: the answers its capability predicates
  give, what its numeric accessors report, which of the probed operations throw (and with
  which exception), its array elements and members, and the list and map views it converts to.

  The Java object that `as(Object.class)` yields for an element or member is represented by
  that element or member itself.
*/
module PolyglotValue {
  import opened JavaIntegers

  /** The capabilities a value may expose (`ValueAssert.Trait`, in declaration order). */
  datatype Trait =
    | Null | HostObject | ProxyObject | Number | String | Boolean
    | Native | Executable | Instantiable | Members | ArrayElements

  /** `Trait.values()`. */
  const AllTraits: seq<Trait> :=
    [Null, HostObject, ProxyObject, Number, String, Boolean, Native, Executable, Instantiable,
     Members, ArrayElements]

  predicate NoDuplicates<T(==)>(s: seq<T>) {
    forall i, j :: 0 <= i < j < |s| ==> s[i] != s[j]
  }

  lemma AllTraitsListsEachTraitOnce()
    ensures forall t :: t in AllTraits
    ensures NoDuplicates(AllTraits)
  {
    forall t: Trait ensures t in AllTraits {
      match t
      case Null =>
      case _ =>
    }
  }

  /** The two exceptions the oracle expects: `ClassCastException` and
      `UnsupportedOperationException`. */
  datatype ErrorKind = CastError | Unsupported

  /** The widths `fitsIn*` asks about. */
  datatype NumericKind = ByteKind | ShortKind | IntKind | LongKind | FloatKind | DoubleKind

  /** The key types of the map views a value may be converted to. */
  datatype MapKeyType =
    | ObjectKey | StringKey | LongKey | IntegerKey | ShortKey | ByteKey | NumberKey
    | FloatKey | DoubleKey | CharSequenceKey

  /** The operations whose outcome the oracle probes. */
  datatype Operation =
    // numeric accessors and conversions
    | AsByte | AsShort | AsInt | AsLong | AsFloat | AsDouble
    | AsNumberClass | AsPrimitiveByte | AsBoxedByte | AsPrimitiveShort | AsBoxedShort
    | AsPrimitiveInt | AsBoxedInteger | AsPrimitiveLong | AsBoxedLong
    | AsPrimitiveFloat | AsBoxedFloat
    // boolean and string conversions
    | AsBoolean | AsPrimitiveBoolean | AsBoxedBoolean
    | AsString | AsStringClass | AsCharacterClass
    // members
    | HasMember | GetMember | PutMember | GetMemberKeys
    // calls and functional adaptation
    | Execute | NewInstance | AsFunction | AsVarArgsInterface
    | AsEmptyInterface | AsNonFunctionalInterface
    // array elements, and the conversions to `List<Object>` and `Object[]`
    | GetArrayElement | SetArrayElement | GetArraySize | AsObjectList | AsObjectArray
    // host, proxy and native handles
    | AsHostObject | AsProxyObject | AsNativePointer
    // conversion to a map with the given key type
    | AsMap(key: MapKeyType)

  /** The exception each probed operation must throw when the capability behind it is absent:
      conversions throw a cast error, capability-gated operations an unsupported-operation error. */
  function ExpectedError(op: Operation): ErrorKind {
    match op
    case HasMember => Unsupported
    case GetMember => Unsupported
    case PutMember => Unsupported
    case GetMemberKeys => Unsupported
    case Execute => Unsupported
    case NewInstance => Unsupported
    case GetArrayElement => Unsupported
    case SetArrayElement => Unsupported
    case GetArraySize => Unsupported
    case _ => CastError
  }

  /** The numeric answers: the widths `fitsIn*` affirms, and the results of `asByte()`,
      `asShort()`, `asInt()` and `asLong()` when those do not throw. */
  datatype NumberReport = NumberReport(
    fits: set<NumericKind>,
    asByte: JByte,
    asShort: JShort,
    asInt: JInt,
    asLong: JLong)

  /** A key of the `Map<Object, Object>` view: a boxed `Long` index or a `String` member name. */
  datatype ObjectMapKey = IndexKey(index: int) | NameKey(name: string)

  /** What the value converts to: `List<Object>`, `Object[]`, and the maps keyed by `Object`,
      `Long`, `Integer` and `Number` (the last holding `Long` keys). */
  datatype Views = Views(
    list: seq<Value>,
    objectArray: seq<Value>,
    objectMap: map<ObjectMapKey, Value>,
    longMap: map<int, Value>,
    intMap: map<int, Value>,
    numberMap: map<int, Value>)

  datatype Value = Value(
    traits: set<Trait>,
    number: NumberReport,
    throws: map<Operation, ErrorKind>,
    hostObjectIsMap: bool,
    elements: seq<Value>,
    members: map<string, Value>,
    views: Views)

  /** The probed operation returns normally. */
  predicate Completes(v: Value, op: Operation) {
    op !in v.throws
  }

  /** The probed operation throws the exception expected of it. */
  predicate FailsAsExpected(v: Value, op: Operation) {
    op in v.throws && v.throws[op] == ExpectedError(op)
  }

  /** `getArrayElement(i)` on an array value. */
  function ElementAt(v: Value, i: nat): Value
    requires i < |v.elements|
  {
    v.elements[i]
  }

  /** `setArrayElement(i, x)` on an array value: the value with element `i` replaced. */
  function WithElement(v: Value, i: nat, x: Value): (w: Value)
    requires i < |v.elements|
    ensures |w.elements| == |v.elements| && w.elements[i] == x
    ensures forall j :: 0 <= j < |v.elements| && j != i ==> w.elements[j] == v.elements[j]
    ensures w == v.(elements := w.elements)
  {
    v.(elements := v.elements[i := x])
  }
}
